=== FILE: README.md ===
# file_validator: a Dafny model of its decision logic

`file_validator` is a Python library that checks uploaded files for Django.
It asks several detectors what a file is:
- python-magic sniffs the first 2048 bytes;
- puremagic matches signatures;
- filetype guesses from magic numbers;
- `mimetypes` guesses from the file name.

It then accepts the file only when the detected mime is among the acceptable ones.

This project models the part the library decides for itself:
- the constructors' configuration checks (library allow-list, empty or all-equal mime lists, the size ceiling);
- the per-library membership checks, including puremagic's permissive rule for ambiguous signatures;
- the dispatch over the selected library names, where the first failure ends the walk and `all` runs a fixed detector sequence;
- the size-ceiling rule, which runs before any detector;
- the error-message builder, which joins the mimes and fills a `str.format` template;
- the older Django validators of `django.py`, `django/filetype.py`, `django/python_magic.py` and `django/mimetypes.py`;
- the plain validator of `validator.py`.

The detectors are not modelled. What each one reports is an input:
- `Option<string>` for a single mime, where `None` means nothing was detected;
- `Option<seq<string>>` for puremagic's candidates, where `None` means puremagic raised AttributeError, which `validators.py` turns into MIME_NOT_VALID;
- `Option<FileKind>` for a filetype type object.

Lookup tables of foreign libraries are function parameters: `mimetypes.guess_extension`, filetype's `get_type` by mime or by extension, `filesizeformat` and `naturalsize`.

Exceptions are split by where they end up:
- a `ValueError` a validator catches becomes a rejection carrying a message (`Outcomes.Verdict.Rejected`);
- in `validators.py` and `models.py`, an exception nothing catches becomes `Outcomes.Verdict.Escaped`. These are the IndexError of an empty puremagic list, the TypeError of a missing library list, the TypeError `naturalsize(None)` raises when no ceiling is set, and `str.format` errors;
- in `django.py`, the AttributeError of an undetected file is `DjangoValidators.Decision.Escapes(AttributeError)`;
- in `validator.py`, it is `SimpleValidator.Raised.AttributeError`.

Modules, one per source file:
- `Wrappers` and `Outcomes` hold the shared datatypes: option, result, check outcome, verdict, file kind.
- `Constants` covers `constants.py`.
- `Utils` covers `utils.py`.
- `Template` models the part of Python's `str.format` the messages use.
- `Exceptions` covers `exceptions.py`.
- `Validators` covers `validators.py`.
- `Models` covers `models.py`.
- `DjangoValidators` covers `django.py`.
- `DjangoFiletype`, `DjangoPythonMagic` and `DjangoMimetypes` cover the three files under `django/`.
- `SimpleValidator` covers `validator.py`.

Where the docstrings and the code disagree, the model follows the code:
- `FileValidator.__init__` in `validators.py` accepts an empty mime list, because `all([])` holds. Its docstring says an empty list raises.
- The `len(libraries) == 0` test in `file_validator_by_django` sits inside the loop over the libraries, so it can never fire. An empty library list runs no check and passes.

## Model

| member | source | states |
|---|---|---|
| Wrappers.FirstFailure | file_validator/validators.py:299-303 | A run of checks passes iff every check passes; a failure is the first failing check, all earlier ones having passed |
| Wrappers.FirstFailureAppend | file_validator/validators.py:249-285 | Running a selection split in two: the second half decides only when the first half passes |
| Wrappers.Collect | file_validator/django.py:71-77 | A constructor loop over the mimes succeeds iff every lookup succeeds, keeps one result per mime in order, and otherwise names the first mime the lookup refuses |
| Constants.FromName | file_validator/constants.py:5-18 | A name is read as a library iff it is on the six-name allow-list, and the library read back prints as that name |
| Constants.SupportedLibrariesExact | file_validator/constants.py:11-18 | The allow-list is exactly python_magic, pure_magic, filetype, mimetypes, default and all |
| Constants.DefaultSelectionSupported | file_validator/constants.py:19-33 | The default selection `all` is a supported name, and the default error template equals FILE_IS_NOT_VALID |
| Utils.GroupBy | file_validator/utils.py:9 | The groups `itertools.groupby` yields concatenate back to the input, are non-empty and constant, and neighbouring groups differ |
| Utils.AllMimesIsEqual | file_validator/utils.py:7-10 | True iff every two elements are equal, hence true for the empty list and for a single element |
| Utils.GroupCountAtMostOne | file_validator/utils.py:10 | `groupby` yields at most one group iff all elements are equal |
| Utils.DifferenceAnywhere | file_validator/utils.py:7-10 | `[a, a, b]` and `[a, b, a]` with a != b are not all equal; `[a, a, a]`, `[a]` and `[]` are |
| Template.Format | file_validator/exceptions.py:36-38 | `str.format` with keyword arguments, scanning left to right over `{name}`, `{{` and `}}`: text without braces comes back unchanged, and only a brace can make it fail |
| Template.FormatStopsAtUnsupportedField | file_validator/exceptions.py:36-38 | After brace-free text, a field with a conversion, format spec, attribute or index fails as UnsupportedField, whatever follows it |
| Template.FormatTwoFields | file_validator/exceptions.py:36-38 | A template of two keyword fields, each followed by brace-free text, formats to the texts with both fields replaced by their values |
| Template.Lookup | file_validator/exceptions.py:36-38 | A field is filled iff it is a keyword, not positional, that is among the arguments, and its value is that argument |
| Template.FormatOfPrint | file_validator/exceptions.py:36-38 | Formatting the printed text of any template with plain fields equals substituting into the template (escaped braces included) |
| Template.FormatParts | file_validator/exceptions.py:36-38 | A template of known keyword fields and brace-free texts formats to the texts with every field replaced by its value |
| Template.FormatText | file_validator/exceptions.py:36-38 | Brace-free text at the front of a template is copied through unchanged |
| Template.FormatField | file_validator/exceptions.py:36-38 | A known keyword field at the front of a template is replaced by its value |
| Exceptions.JoinMimesAsWritten | file_validator/exceptions.py:28-34 | The join as written: empty for no mimes, and one separator for each mime not equal to the last, so an earlier duplicate of the last loses its separator |
| Exceptions.JoinMimes | file_validator/exceptions.py:28-34 | The intended join: empty for no mimes, the first mime first, and exactly one ", " between consecutive mimes |
| Exceptions.JoinMimesAppend | file_validator/exceptions.py:28-34 | Appending a mime appends one separator and the mime to the intended join |
| Exceptions.JoinAgreement | file_validator/exceptions.py:28-34 | The written and the intended join agree iff the last mime does not occur earlier in the list |
| Exceptions.DuplicateLastLosesSeparator | file_validator/exceptions.py:30-34 | For a != b, the written join of `[a, b, a]` is `a + b + ", " + a`, where the intended one is `a + ", " + b + ", " + a` |
| Exceptions.ErrorMessageFillsAnyTemplate | file_validator/exceptions.py:36-38 | Any configured template with plain keyword fields is filled field by field with the file name, the mimes joined as written and both sizes |
| Exceptions.ErrorMessage | file_validator/exceptions.py:12-38 | The default template yields the file followed by " is not valid"; the size template yields both sizes in the size sentence; `{mimes}` yields the mimes joined by the loop as written |
| Exceptions.MimesMessageIntendedIffUniqueLast | file_validator/exceptions.py:28-38 | The `{mimes}` message shows the intended ", "-separated list iff the last mime does not occur earlier |
| Exceptions.UnsetSettingMessage | file_validator/exceptions.py:6-9 | With no configured setting, the template is "{file} is not valid" and the message is the file name followed by " is not valid" |
| Validators.ErrorText | file_validator/validators.py:80-89 | The text of each ValueError: LIBRARY_IS_NOT_SUPPORTED names the library and then the printed allow-list, MIMES_EMPTY and MIME_NOT_VALID are fixed, and MIME_NOT_VALID_WITH_MIME_NAME gives "<mime> is not valid" |
| Validators.LibraryTemplateRenders | file_validator/constants.py:29-31 | LIBRARY_IS_NOT_SUPPORTED formats to the library, the fixed sentence, the list and a space |
| Validators.MimeTemplateRenders | file_validator/constants.py:23 | MIME_NOT_VALID_WITH_MIME_NAME formats to the mime followed by " is not valid" |
| Validators.ByPythonMagic | file_validator/validators.py:132-151 | Passes iff the sniffed mime is acceptable; no sniffed mime is MIME_NOT_VALID, a wrong one is reported by name |
| Validators.ByMimetypes | file_validator/validators.py:185-203 | Passes iff the guessed mime is acceptable; an unknown extension guesses None and fails with that None |
| Validators.ByFiletype | file_validator/validators.py:206-225 | Passes iff filetype's mime is acceptable; an undetected file is MIME_NOT_VALID |
| Validators.DistinctAtMostOne | file_validator/validators.py:174 | At most one distinct candidate iff all candidates are equal |
| Validators.ByPureMagic | file_validator/validators.py:154-182 | Two different candidates skip the check; unanimous candidates pass iff their mime is acceptable; an empty candidate list raises IndexError |
| Validators.AmbiguousSignatureSkips | file_validator/validators.py:174-175 | Two differing candidates anywhere in the list make the check pass whatever is acceptable |
| Validators.FileValidator | file_validator/validators.py:288-305 | Runs filetype, mimetypes, pure_magic and python_magic in that order, passes iff all four pass, and a failure is the first failing check in that order |
| Validators.CheckLibrary | file_validator/validators.py:249-285 | Each supported name selects its own check; `default` passes iff Django's content type is acceptable; an unsupported name fails naming it |
| Validators.LibraryChecks | file_validator/validators.py:249 | One check per selected name, in the given order |
| Validators.Dispatch | file_validator/validators.py:228-285 | Passes iff every selected library's check passes; a failure is the first failing library's; an empty list passes |
| Validators.AllIsFixedSequence | file_validator/validators.py:255-256 | Selecting `all` decides exactly as selecting filetype, mimetypes, pure_magic and python_magic in that order |
| Validators.DispatchAppend | file_validator/validators.py:249-285 | Libraries after a passing prefix decide; a failing prefix decides alone |
| Validators.SizeExceeded | file_validator/validators.py:308-332 | Too large iff a ceiling other than 0 is set and the size exceeds it; a size equal to the ceiling passes |
| Validators.CheckLibraries | file_validator/validators.py:79-86 | Succeeds iff every name is supported, keeping the names in order; otherwise fails at the first unsupported name |
| Validators.SelectedLibraries | file_validator/validators.py:76-86 | No library list stores exactly `["all"]`; a given list is checked name by name |
| Validators.NewConfig | file_validator/validators.py:45-93 | Construction succeeds iff the libraries are supported and the mimes are given with no empty entry; libraries are checked first; mimes and ceiling are stored as given |
| Validators.EmptyMimeListAccepted | file_validator/validators.py:88 | An empty mime list is accepted, since `all([])` holds |
| Validators.SizeMessage | file_validator/validators.py:323-332 | The oversize message is the formatted size and ceiling in the size sentence |
| Validators.Reject | file_validator/validators.py:113-121 | A dispatch ValueError becomes a rejection iff the template formats, with the default template giving "<file> is not valid"; an IndexError escapes |
| Validators.Call | file_validator/validators.py:95-121 | An oversize file is rejected with the size message; otherwise the upload is accepted iff the dispatch passes; an empty puremagic list escapes as IndexError; any other dispatch failure gives the `error_message` verdict for the configured template, with both sizes through `filesizeformat` and the acceptable mimes |
| Validators.SizeBeforeDetectors | file_validator/validators.py:100-112 | An oversize file is rejected whatever the detectors report |
| Validators.Equals | file_validator/validators.py:123-129 | Equal iff same class and equal libraries, mimes and size ceiling |
| Validators.EqualValidatorsAgree | file_validator/validators.py:123-129 | Equal validators decide every upload alike |
| Validators.PngUploadAccepted | file_validator/validators.py:95-121 | A 50 KB PNG under a 1 MB ceiling with PNG and MPEG audio acceptable and `all` selected is accepted |
| Models.SizeExceeded | file_validator/models.py:133-136 | No ceiling means no limit; a set ceiling follows the validators' size rule |
| Models.Check | file_validator/models.py:153-177 | Size rule first, then dispatch; accepted iff both pass; an IndexError of the dispatch escapes; a dispatch ValueError escapes as TypeError when no ceiling is set (`naturalsize(None)`), and otherwise becomes the `error_message` rejection, "<file> is not valid" under the default template |
| Models.NewField | file_validator/models.py:55-59 | Construction fails iff the mimes are missing or all equal, so success means at least two mimes; libraries and ceiling are stored unchecked |
| Models.Clean | file_validator/models.py:69-97 | An oversize file is rejected with the size message whatever the libraries; a field without libraries then escapes as TypeError; otherwise it decides as the validator does |
| Models.NewConfig | file_validator/models.py:107-151 | Libraries checked first, None storing `["all"]`; then the mimes must be given and not all equal; the ceiling is stored unchanged |
| Models.Call | file_validator/models.py:153-177 | An oversize file is rejected; otherwise accepted iff the dispatch passes; a failing dispatch escapes (IndexError, or TypeError without a ceiling) or is rejected with the `error_message` text |
| Models.Equals | file_validator/models.py:179-185 | Equal iff same class and equal libraries, mimes and ceiling |
| Models.SizeBeforeDetectors | file_validator/models.py:75-85 | For both classes an oversize file is rejected whatever the detectors report |
| Models.FieldMatchesValidator | file_validator/models.py:29-97 | A field given the same libraries, mimes and ceiling as a validator decides every upload as that validator does |
| Models.RepeatedMimeRefused | file_validator/models.py:56 | Both constructors refuse a list repeating one mime, including the empty list and a single mime |
| Models.UnsetCeilingEscapes | file_validator/models.py:133-177 | A validator built without a ceiling turns every dispatch ValueError into an escaping TypeError instead of a validation message |
| Models.CheckIntended | file_validator/models.py:169-177 | With an unset ceiling formatted as the documented default 0, a dispatch ValueError is never a TypeError and, under the default template, always a rejection; with a ceiling it decides as `Models.Check` |
| DjangoValidators.NewByPythonMagic | file_validator/django.py:30-39 | Fails iff some mime is empty; keeps the mimes in order |
| DjangoValidators.CallByPythonMagic | file_validator/django.py:41-50 | Accepts iff the sniffed mime is selected |
| DjangoValidators.EqualsByPythonMagic | file_validator/django.py:52-56 | Equal iff same class and equal selected mimes |
| DjangoValidators.NewByMimeTypes | file_validator/django.py:65-77 | Succeeds iff every mime has an extension, storing the mimes as given and one extension per mime; otherwise names the first mime without one |
| DjangoValidators.CallByMimeTypes | file_validator/django.py:79-98 | Rejects iff the mime is not selected or its extension is not selected; an unknown extension is rejected |
| DjangoValidators.MimeTypesAcceptsSelected | file_validator/django.py:65-98 | With the lookup it was built with, the validator accepts exactly the selected mimes |
| DjangoValidators.EqualsByMimeTypes | file_validator/django.py:100-105 | Equal iff same class and equal mimes and extensions |
| DjangoValidators.Mimes | file_validator/django.py:127 | One `MIME` per type, in order |
| DjangoValidators.Extensions | file_validator/django.py:128 | One `EXTENSION` per type, in order |
| DjangoValidators.NewByFileType | file_validator/django.py:114-131 | Fails on an empty mime first, then names the first mime with no filetype type; otherwise keeps each type's mime and extension in order |
| DjangoValidators.CallByFileType | file_validator/django.py:133-151 | Rejects iff neither the extension nor the mime is selected; an undetected file is rejected |
| DjangoValidators.FileTypeMonotone | file_validator/django.py:141-147 | Selecting more mimes and extensions never turns an acceptance into a rejection |
| DjangoValidators.FileTypeAcceptsSelected | file_validator/django.py:114-151 | A file whose type is one of the selected types is accepted |
| DjangoValidators.EqualsByFileType | file_validator/django.py:153-158 | Equal iff same class and equal mimes and extensions |
| DjangoValidators.NewCombined | file_validator/django.py:167-181 | Succeeds iff every mime names a filetype type, keeping each type's mime in order and the python-magic flag; otherwise names the first mime with no type |
| DjangoValidators.CallCombined | file_validator/django.py:183-212 | An undetected file escapes as AttributeError; with the flag all three mimes must be selected, without it filetype's and mimetypes' |
| DjangoValidators.PgFlagNarrows | file_validator/django.py:196-212 | The flag only narrows acceptance; without it python-magic's answer is irrelevant |
| DjangoValidators.EqualsCombined | file_validator/django.py:214-219 | Equal iff same class and equal mimes and flag |
| DjangoFiletype.Put | file_validator/django/filetype.py:32-36 | `dict.update`: an existing key keeps its place and takes the new value, a new key goes last, keys stay distinct |
| DjangoFiletype.PutContents | file_validator/django/filetype.py:32-36 | After an update the keys are the old keys plus the new one, and every entry is the new one or an old one |
| DjangoFiletype.Build | file_validator/django/filetype.py:28-41 | Succeeds iff every extension is supported; the result has distinct keys, one per argument, each holding its extension's type; otherwise names the first unsupported extension |
| DjangoFiletype.BuildStep | file_validator/django/filetype.py:29-36 | Adding one more supported extension keeps every entry faithful and every argument keyed |
| DjangoFiletype.New | file_validator/django/filetype.py:15-42 | Fails on an empty argument first, then names the first unsupported extension; no arguments give an empty selection |
| DjangoFiletype.ResultValidation | file_validator/django/filetype.py:57-68 | The list holds a False iff some entry matches the file in both extension and mime |
| DjangoFiletype.Call | file_validator/django/filetype.py:44-87 | An untyped upload is rejected with "Please Upload a Valid File"; other rejections name the extension |
| DjangoFiletype.AcceptedIffFullMatch | file_validator/django/filetype.py:57-87 | A typed upload is accepted iff some entry matches it in both extension and mime |
| DjangoFiletype.EmptySelectionRejects | file_validator/django/filetype.py:21-42 | No arguments build an empty selection, which rejects every upload |
| DjangoFiletype.OrderIrrelevant | file_validator/django/filetype.py:83-87 | The verdict depends only on which entries are selected, not on their order |
| DjangoFiletype.AcceptedIffSelected | file_validator/django/filetype.py:15-87 | Built from arguments, a typed upload is accepted iff its extension was selected and that extension's type has its mime |
| DjangoPythonMagic.New | file_validator/django/python_magic.py:10-24 | Fails with ArgsEmpty iff some argument is empty; keeps the arguments in order |
| DjangoPythonMagic.Call | file_validator/django/python_magic.py:26-34 | Accepts iff the sniffed mime is selected, else rejects with "<mime> file is not valid" |
| DjangoPythonMagic.NoArgumentsRejectsAll | file_validator/django/python_magic.py:14-34 | No arguments are accepted at construction, and the result rejects every file |
| DjangoPythonMagic.AgreesWithValidators | file_validator/django/python_magic.py:26-34 | Accepts exactly the files the python-magic check of `validators.py` accepts; a rejection is that check failing on the same mime |
| DjangoMimetypes.Call | file_validator/django/mimetypes.py:13-18 | Accepts iff the guessed mime is selected, else rejects with "<mime> it is unacceptable" |
| DjangoMimetypes.UnknownExtensionRejected | file_validator/django/mimetypes.py:16-18 | An unknown extension is rejected with "None it is unacceptable" |
| DjangoMimetypes.AgreesWithValidators | file_validator/django/mimetypes.py:13-18 | Accepts exactly the files the mimetypes check of `validators.py` accepts; a rejection is that check failing on the same guess |
| SimpleValidator.Member | file_validator/validator.py:24-26 | Passes iff the mime is among the arguments, else ValueError "<mime> is not valid" |
| SimpleValidator.ByPythonMagic | file_validator/validator.py:15-26 | Passes iff the sniffed mime is among the arguments |
| SimpleValidator.ByMimetypes | file_validator/validator.py:29-39 | Passes iff the guessed mime is among the arguments; None fails as "None is not valid" |
| SimpleValidator.ByFiletype | file_validator/validator.py:42-52 | An undetected file raises AttributeError; otherwise passes iff its mime is among the arguments |
| SimpleValidator.FileValidator | file_validator/validator.py:55-65 | Passes iff filetype, mimetypes and python-magic all pass; a failure is the first failing check in that order, so an undetected file raises AttributeError first |
| SimpleValidator.NoArgumentsRejectsAll | file_validator/validator.py:24-52 | With no arguments every check and the composition fail |
| SimpleValidator.AgreesWithValidators | file_validator/validator.py:55-65 | The plain validator accepts exactly the files the filetype, mimetypes and python-magic checks of `validators.py` all accept |

## Left out

- The detectors are foreign libraries and are replaced by their reported results: `magic.from_buffer`, `puremagic.magic_stream`, `filetype.guess`, `get_type`, `is_mime_supported`, `is_extension_supported`, and `mimetypes.guess_type` and `guess_extension`.
- File I/O is not modelled: opening the upload, reading its first 2048 bytes, and `TemporaryUploadedFile.temporary_file_path`.
- Django plumbing is not modelled: `@deconstructible`, `deconstruct`, the `FileField` superclass and its `clean`, and the exception classes. A raised `ValidationError` or `DjangoFileValidationException` is a `Rejected` verdict.
- termcolor colouring of messages is left out, because it changes only how the text is displayed.
- The `FILE_VALIDATOR_ERROR_MESSAGE` setting is read once at import. It is a parameter (`Exceptions.ErrorTemplate`, and the `template` argument of the calls).
- `filesizeformat` and `naturalsize` are parameters. Their output text is not modelled. The one fact of `naturalsize` the model relies on is that it raises TypeError for `None`, since it starts with `float(value)`.
- The texts of the `ValueError`s that `validators.py` raises are given by `Validators.ErrorText`. `FileValidator.__call__` replaces them with its own message, so only the constructor's texts reach a caller. `str(ALL_SUPPORTED_LIBRARIES)` is written out as `Constants.AllSupportedLibrariesText` rather than derived from the list.
- Exceptions.ErrorMessage: models only the keyword part of `str.format` (`{name}`, `{{`, `}}`). A field with a conversion, format spec, attribute or index is reported as `UnsupportedField` instead of being rendered.
- DjangoValidators.CallByPythonMagic: rejections carry no text. The `error_message(file=..., mimes=...)` calls in `django.py` omit the `file_size` and `max_file_size` arguments that the `error_message` of `exceptions.py` requires, so they belong to a version of the message builder that is not part of this model.
- DjangoValidators.CallByMimeTypes: carries no rejection text, for the same reason.
- DjangoValidators.CallByFileType: carries no rejection text, for the same reason.
- DjangoValidators.CallCombined: carries no rejection text, for the same reason.
- The constructor error texts in `django.py` are not modelled. `ARGS_EMPTY_ERROR_MESSAGE` and `MIME_NOT_VALID_ERROR_MESSAGE` are not defined in `exceptions.py`, so the model keeps only the error kinds.
- `models.py` refers to names that `exceptions.py` and `utils.py` do not define: `library_supported`, `FileValidationException`, `MimesEmptyException` and `DjangoFileValidationException`. It also calls `size_validator(max_upload_file_size=..., file_path=...)`, which does not match `size_validator` in `validators.py`. The model reads these by their evident meaning:
  - `library_supported` is the allow-list check of `validators.py`;
  - `FileValidationException` is the dispatch's `ValueError`;
  - the size check is the rule of `validators.py`, with the file's size.
- Models.SizeExceeded: reads an unset (None) ceiling as no limit, as the stored `None` is meant. Python would raise TypeError when comparing an int with `None`.
- file_validator/django/validator.py is not part of this model; its `__call__` does nothing. The same goes for file_validator/django/file_types.py, a table built from filetype's own list.
- file_validator/forms.py and file_validator/widgets.py are not part of this model; they are form and widget classes with no decision logic.
- Concurrency and the order in which Django runs several validators are outside the model.

## Findings

The calls of the model keep each defect as the code has it; the corrected definition stands beside it with its intended property proved.

| source | as written | input that shows it | evidently intended | confidence | as-written member | corrected member |
|---|---|---|---|---|---|---|
| file_validator/exceptions.py:28-34 | The separator is left out after any mime equal by value to `mimes[-1]`, not only after the last position | `["image/png", "audio/mpeg", "image/png"]` joins to `image/pngaudio/mpeg, image/png` | Mimes separated by ", " between consecutive entries: `image/png, audio/mpeg, image/png` | not executed | Exceptions.JoinMimesAsWritten, Exceptions.DuplicateLastLosesSeparator | Exceptions.JoinMimes, Exceptions.MimesMessageIntendedIffUniqueLast |
| file_validator/models.py:133-177 | The ceiling defaults to `None` and is passed to `naturalsize` whenever the dispatch fails | A validator built without `max_upload_file_size` and an upload whose mimetypes guess is not acceptable: `naturalsize(None)` raises TypeError instead of the validation message | An unset ceiling formatted as the documented default 0, so the user sees the `error_message` rejection | not executed | Models.Check, Models.UnsetCeilingEscapes | Models.CheckIntended |

=== FILE: constants.dfy ===
/** The library names, sentinels and message templates of the validator. */
module Constants {

  import opened Wrappers

  const PythonMagic: string := "python_magic"
  const PureMagic: string := "pure_magic"
  const Filetype: string := "filetype"
  const Mimetypes: string := "mimetypes"
  const Default: string := "default"
  const All: string := "all"

  /** The allow-list of library names, in the source's order. */
  const AllSupportedLibraries: seq<string> := [PythonMagic, PureMagic, Filetype, Mimetypes, Default, All]

  /** The selection stored when no library list is given. */
  const SelectingAllSupportedLibraries: string := "all"

  /** The size ceiling that means "no limit". */
  const Zero: int := 0

  const MimesEmpty: string := "The args value is empty, please pass the value (file MIME)."
  const MimeNotValid: string := "mime is not a valid"
  const MimeNotValidWithMimeName: string := "{file_mime}" + " is not valid"
  const FileIsNotValid: string := "{file} is not valid"
  const FileSizeIsNotValid: string :=
    "{file_size}" + " is not valid size for this file," + " you can upload files up to " + "{max_file_size}" + "."
  const LibraryIsNotSupported: string :=
    "{library}" + " is not supported," + " you can choice library" + " from this list : " + "{libraries}" + " "
  const DefaultErrorMessage: string := "{file} is not valid"

  /** Python's `str()` of `AllSupportedLibraries`, as interpolated into `LibraryIsNotSupported`. */
  const AllSupportedLibrariesText: string :=
    "['python_magic', 'pure_magic', 'filetype', 'mimetypes', 'default', 'all']"

  /** The supported libraries as a closed enumeration. */
  datatype Library = PythonMagicLib | PureMagicLib | FiletypeLib | MimetypesLib | DefaultLib | AllLib

  /** The configuration name of each library. */
  function Name(l: Library): string
  {
    match l
    case PythonMagicLib => PythonMagic
    case PureMagicLib => PureMagic
    case FiletypeLib => Filetype
    case MimetypesLib => Mimetypes
    case DefaultLib => Default
    case AllLib => All
  }

  /** Reads a configuration name back; names outside the allow-list read as `None`. */
  function FromName(name: string): (r: Option<Library>)
    ensures r.Some? <==> name in AllSupportedLibraries
    ensures r.Some? ==> Name(r.value) == name
  {
    if name == PythonMagic then Some(PythonMagicLib)
    else if name == PureMagic then Some(PureMagicLib)
    else if name == Filetype then Some(FiletypeLib)
    else if name == Mimetypes then Some(MimetypesLib)
    else if name == Default then Some(DefaultLib)
    else if name == All then Some(AllLib)
    else None
  }

  /** `library in ALL_SUPPORTED_LIBRARIES`. */
  predicate IsSupported(library: string)
  {
    library in AllSupportedLibraries
  }

  /** The allow-list is exactly the six library names, and every library's name is on it. */
  lemma SupportedLibrariesExact(library: string)
    ensures IsSupported(library) <==>
      library in {"python_magic", "pure_magic", "filetype", "mimetypes", "default", "all"}
    ensures |AllSupportedLibraries| == 6
    ensures forall l: Library :: IsSupported(Name(l)) && FromName(Name(l)) == Some(l)
  {
  }

  /** The default selection is itself a supported name, namely `all`. */
  lemma DefaultSelectionSupported()
    ensures SelectingAllSupportedLibraries == All
    ensures IsSupported(SelectingAllSupportedLibraries)
    ensures DefaultErrorMessage == FileIsNotValid
  {
  }
}

=== FILE: django_filetype.dfy ===
/**
 * The filetype-based validator of `file_validator/django/filetype.py`:
 * a dictionary from the selected extensions to their filetype types, and
 * a call that accepts an upload only when some selected entry matches both
 * its extension and its mime.
 */
module DjangoFiletype {

  import opened Wrappers
  import opened Outcomes

  /** One entry of `selected_types`: the extension as given and the type `get_type(ext=...)` returns. */
  datatype Entry = Entry(key: string, kind: FileKind)

  /** Why the constructor raises `ValueError`. */
  datatype ConfigError =
    | ArgsEmpty                          // some argument is empty
    | TypeNotSupported(extension: string)  // `is_extension_supported` refused it

  /** No two entries share a key, as in a Python dict. */
  predicate DistinctKeys(entries: seq<Entry>)
  {
    forall i, j :: 0 <= i < j < |entries| ==> entries[i].key != entries[j].key
  }

  /** Whether some entry has the key. */
  predicate HasKey(entries: seq<Entry>, key: string)
  {
    exists i :: 0 <= i < |entries| && entries[i].key == key
  }

  /**
   * `dict.update({key: kind})`: an existing key keeps its place and takes
   * the new value; a new key goes at the end.
   */
  function Put(entries: seq<Entry>, key: string, kind: FileKind): (r: seq<Entry>)
    requires DistinctKeys(entries)
    ensures DistinctKeys(r)
    ensures HasKey(entries, key) ==>
      |r| == |entries| &&
      forall i :: 0 <= i < |entries| ==> r[i] == (if entries[i].key == key then Entry(key, kind) else entries[i])
    ensures !HasKey(entries, key) ==> r == entries + [Entry(key, kind)]
  {
    if HasKey(entries, key) then
      seq(|entries|, i requires 0 <= i < |entries| => if entries[i].key == key then Entry(key, kind) else entries[i])
    else entries + [Entry(key, kind)]
  }

  /** After `Put`, the keys are the old keys plus the new one, and every entry is the new one or an old one. */
  lemma PutContents(entries: seq<Entry>, key: string, kind: FileKind)
    requires DistinctKeys(entries)
    ensures forall a :: HasKey(Put(entries, key, kind), a) <==> HasKey(entries, a) || a == key
    ensures forall e :: e in Put(entries, key, kind) ==> e == Entry(key, kind) || e in entries
  {
    var r := Put(entries, key, kind);
    forall a ensures HasKey(r, a) <==> HasKey(entries, a) || a == key {
      if HasKey(entries, a) {
        var i :| 0 <= i < |entries| && entries[i].key == a;
        assert r[i].key == a;
      }
      if a == key && !HasKey(entries, key) {
        assert r[|entries|].key == a;
      }
      if HasKey(r, a) {
        var i :| 0 <= i < |r| && r[i].key == a;
        if i < |entries| && entries[i].key != key {
          assert entries[i].key == a;
        }
      }
    }
  }

  /** Every entry is keyed by one of `args` and holds that key's type. */
  predicate Faithful(entries: seq<Entry>, args: seq<string>, byExtension: string -> Option<FileKind>)
  {
    forall e :: e in entries ==> e.key in args && Some(e.kind) == byExtension(e.key)
  }

  /**
   * The constructor's loop over the arguments in order; `byExtension`
   * stands for `is_extension_supported` and `get_type(ext=...)`, None for
   * an unsupported extension.
   */
  function Build(args: seq<string>, byExtension: string -> Option<FileKind>): (r: Result<seq<Entry>, ConfigError>)
    ensures r.Success? <==> forall i :: 0 <= i < |args| ==> byExtension(args[i]).Some?
    ensures r.Failure? ==>
      exists k :: 0 <= k < |args| && r.error == TypeNotSupported(args[k]) && byExtension(args[k]).None? &&
        (forall i :: 0 <= i < k ==> byExtension(args[i]).Some?)
    ensures r.Success? ==>
      && DistinctKeys(r.value)
      && Faithful(r.value, args, byExtension)
      && (forall a :: a in args ==> HasKey(r.value, a))
  {
    if |args| == 0 then Success([])
    else
      var init, last := args[..|args| - 1], args[|args| - 1];
      assert forall i :: 0 <= i < |args| - 1 ==> args[i] == init[i];
      match Build(init, byExtension)
      case Failure(e) => Failure(e)
      case Success(entries) =>
        match byExtension(last)
        case None => Failure(TypeNotSupported(last))
        case Some(kind) =>
          BuildStep(args, init, last, entries, kind, byExtension);
          Success(Put(entries, last, kind))
  }

  /** One step of `Build`: putting the last argument keeps the invariants for the longer list. */
  lemma BuildStep(args: seq<string>, init: seq<string>, last: string, entries: seq<Entry>, kind: FileKind,
                  byExtension: string -> Option<FileKind>)
    requires args == init + [last] && byExtension(last) == Some(kind)
    requires DistinctKeys(entries) && Faithful(entries, init, byExtension)
    requires forall a :: a in init ==> HasKey(entries, a)
    ensures Faithful(Put(entries, last, kind), args, byExtension)
    ensures forall a :: a in args ==> HasKey(Put(entries, last, kind), a)
  {
    PutContents(entries, last, kind);
    assert forall a :: a in args <==> a in init || a == last;
  }

  /** The state of the validator: `selected_types` as an ordered list of entries. */
  datatype Validator = Validator(selectedTypes: seq<Entry>)

  /**
   * `FileValidator.__init__`: no argument may be empty (an empty argument
   * list passes, since `all(())` holds), then every argument must be a
   * supported extension.
   */
  function New(args: seq<string>, byExtension: string -> Option<FileKind>): (r: Result<Validator, ConfigError>)
    ensures !AllTruthy(args) ==> r == Failure(ArgsEmpty)
    ensures r.Success? <==> AllTruthy(args) && forall i :: 0 <= i < |args| ==> byExtension(args[i]).Some?
    ensures (AllTruthy(args) && r.Failure?) ==>
      exists k :: 0 <= k < |args| && r.error == TypeNotSupported(args[k]) && byExtension(args[k]).None? &&
        (forall i :: 0 <= i < k ==> byExtension(args[i]).Some?)
    ensures r.Success? ==>
      && DistinctKeys(r.value.selectedTypes)
      && (forall a :: a in args ==> HasKey(r.value.selectedTypes, a))
      && Faithful(r.value.selectedTypes, args, byExtension)
  {
    if !AllTruthy(args) then Failure(ArgsEmpty)
    else
      match Build(args, byExtension)
      case Success(entries) => Success(Validator(entries))
      case Failure(e) => Failure(e)
  }

  /** Whether the detected type matches the entry in both extension and mime. */
  predicate FullMatch(entry: Entry, current: FileKind)
  {
    current.extension == entry.key && current.mime == entry.kind.mime
  }

  /** Whether the detected type differs from the entry in both extension and mime. */
  predicate FullMismatch(entry: Entry, current: FileKind)
  {
    current.extension != entry.key && current.mime != entry.kind.mime
  }

  /**
   * `result_validation`: for each entry in order, True when both extension
   * and mime differ, False when both match, nothing for a partial match.
   */
  function ResultValidation(entries: seq<Entry>, current: FileKind): (r: seq<bool>)
    ensures false in r <==> exists i :: 0 <= i < |entries| && FullMatch(entries[i], current)
    ensures |r| <= |entries|
  {
    if |entries| == 0 then []
    else
      var rest := ResultValidation(entries[1..], current);
      assert forall i :: 1 <= i < |entries| ==> entries[i] == entries[1..][i - 1];
      if FullMismatch(entries[0], current) then [true] + rest
      else if FullMatch(entries[0], current) then [false] + rest
      else rest
  }

  /** Python's `all()` over a list of booleans. */
  predicate All(bs: seq<bool>)
  {
    false !in bs
  }

  /**
   * `FileValidator.__call__`: an upload `guess` cannot type is rejected;
   * otherwise it is rejected when `all(result_validation)` holds.
   */
  function Call(v: Validator, current: Option<FileKind>): (r: Verdict)
    ensures !r.Escaped?
    ensures current.None? ==> r == Rejected("Please Upload a Valid File")
    ensures current.Some? && r.Rejected? ==>
      r.message == current.value.extension + " File Is Not Valid, Please Upload a valid Type"
  {
    match current
    case None => Rejected("Please Upload a Valid File")
    case Some(kind) =>
      if All(ResultValidation(v.selectedTypes, kind)) then
        Rejected(kind.extension + " File Is Not Valid, Please Upload a valid Type")
      else Accepted
  }

  /**
   * A typed upload is accepted exactly when some selected entry matches it
   * in both extension and mime; partial matches alone do not help.
   */
  lemma AcceptedIffFullMatch(v: Validator, kind: FileKind)
    ensures Call(v, Some(kind)).Accepted? <==>
      exists i :: 0 <= i < |v.selectedTypes| && FullMatch(v.selectedTypes[i], kind)
  {
  }

  /** With no selected types, every upload is rejected. */
  lemma EmptySelectionRejects(byExtension: string -> Option<FileKind>, current: Option<FileKind>)
    ensures New([], byExtension) == Success(Validator([]))
    ensures Call(Validator([]), current).Rejected?
  {
  }

  /** The verdict depends only on which entries are selected, not on their order. */
  lemma OrderIrrelevant(a: Validator, b: Validator, current: Option<FileKind>)
    requires forall e :: e in a.selectedTypes <==> e in b.selectedTypes
    ensures Call(a, current) == Call(b, current)
  {
    if current.Some? {
      var kind := current.value;
      AcceptedIffFullMatch(a, kind);
      AcceptedIffFullMatch(b, kind);
      if exists i :: 0 <= i < |a.selectedTypes| && FullMatch(a.selectedTypes[i], kind) {
        var i :| 0 <= i < |a.selectedTypes| && FullMatch(a.selectedTypes[i], kind);
        assert a.selectedTypes[i] in b.selectedTypes;
      }
      if exists i :: 0 <= i < |b.selectedTypes| && FullMatch(b.selectedTypes[i], kind) {
        var i :| 0 <= i < |b.selectedTypes| && FullMatch(b.selectedTypes[i], kind);
        assert b.selectedTypes[i] in a.selectedTypes;
      }
    }
  }

  /**
   * Built from the arguments, the validator accepts a typed upload exactly
   * when its extension was selected and the selected type carries its mime.
   */
  lemma AcceptedIffSelected(args: seq<string>, byExtension: string -> Option<FileKind>, kind: FileKind)
    requires New(args, byExtension).Success?
    ensures Call(New(args, byExtension).value, Some(kind)).Accepted? <==>
      kind.extension in args && byExtension(kind.extension).value.mime == kind.mime
  {
    var v := New(args, byExtension).value;
    AcceptedIffFullMatch(v, kind);
    if kind.extension in args {
      var i :| 0 <= i < |v.selectedTypes| && v.selectedTypes[i].key == kind.extension;
      assert v.selectedTypes[i] in v.selectedTypes;
    }
  }
}

=== FILE: django_mimetypes.dfy ===
/** The mimetypes validator of `file_validator/django/mimetypes.py`. */
module DjangoMimetypes {

  import opened Wrappers
  import opened Outcomes
  import Validators

  /** The state of the validator: the arguments as given, unchecked. */
  datatype Validator = Validator(selectedMimes: seq<string>)

  /**
   * `FileValidator.__call__`: the mime guessed from the file name must be
   * selected; an unknown extension guesses None, which no selection of
   * strings holds, and is printed as "None" in the message.
   */
  function Call(v: Validator, guessed: Option<string>): (r: Verdict)
    ensures r.Accepted? <==> OptIn(guessed, v.selectedMimes)
    ensures !r.Accepted? ==> r == Rejected(Show(guessed) + " it is unacceptable")
  {
    if !OptIn(guessed, v.selectedMimes) then Rejected(Show(guessed) + " it is unacceptable") else Accepted
  }

  /** An unknown extension is rejected whatever is selected. */
  lemma UnknownExtensionRejected(v: Validator)
    ensures Call(v, None) == Rejected("None it is unacceptable")
  {
  }

  /**
   * This validator and the mimetypes check of `validators.py` accept the
   * same files; where it rejects, that check fails naming the same guess.
   */
  lemma AgreesWithValidators(v: Validator, guessed: Option<string>)
    ensures Call(v, guessed).Accepted? <==> Validators.ByMimetypes(v.selectedMimes, guessed).Pass?
    ensures Call(v, guessed).Rejected? <==>
      Validators.ByMimetypes(v.selectedMimes, guessed) == Fail(Validators.MimeNotAccepted(guessed))
  {
  }
}

=== FILE: django_python_magic.dfy ===
/** The python-magic validator of `file_validator/django/python_magic.py`. */
module DjangoPythonMagic {

  import opened Wrappers
  import opened Outcomes
  import Validators

  /** Why the constructor refuses its arguments: some selected mime is empty. */
  datatype ConfigError = ArgsEmpty

  /** The state of the validator: the selected mimes in argument order. */
  datatype Validator = Validator(selectedMimes: seq<string>)

  /**
   * `FileValidator.__init__`: fails exactly when some argument is empty
   * (none at all passes, since `all(())` holds); the arguments are kept
   * in order.
   */
  function New(args: seq<string>): (r: Result<Validator, ConfigError>)
    ensures r.Success? <==> AllTruthy(args)
    ensures r.Success? ==> r.value.selectedMimes == args
    ensures r.Failure? ==> r.error == ArgsEmpty
  {
    if AllTruthy(args) then Success(Validator(args)) else Failure(ArgsEmpty)
  }

  /** `FileValidator.__call__`: the mime python-magic sniffs must be selected. */
  function Call(v: Validator, sniffed: string): (r: Verdict)
    ensures r.Accepted? <==> sniffed in v.selectedMimes
    ensures !r.Accepted? ==> r == Rejected(sniffed + " file is not valid")
  {
    if sniffed !in v.selectedMimes then Rejected(sniffed + " file is not valid") else Accepted
  }

  /** A validator built from no arguments rejects every file. */
  lemma NoArgumentsRejectsAll(sniffed: string)
    ensures New([]) == Success(Validator([]))
    ensures Call(New([]).value, sniffed).Rejected?
  {
  }

  /**
   * This validator and the python-magic check of `validators.py` accept
   * the same files; where it rejects, that check fails naming the mime.
   */
  lemma AgreesWithValidators(v: Validator, sniffed: string)
    ensures Call(v, sniffed).Accepted? <==> Validators.ByPythonMagic(v.selectedMimes, Some(sniffed)).Pass?
    ensures Call(v, sniffed).Rejected? <==>
      Validators.ByPythonMagic(v.selectedMimes, Some(sniffed)) == Fail(Validators.MimeNotAccepted(Some(sniffed)))
  {
  }
}

=== FILE: django_validators.dfy ===
/**
 * The older Django validators of `file_validator/django.py`: one class
 * per detector plus a combined `FileValidator`. Each constructor checks
 * and normalises the selected mimes; each call accepts or rejects one
 * upload from what the detectors report.
 */
module DjangoValidators {

  import opened Wrappers
  import opened Outcomes

  /** Why a constructor raises `ValueError`. */
  datatype ConfigError =
    | ArgsEmpty               // some selected mime is empty
    | MimeNotValid(mime: string)  // no extension or filetype type is known for this mime

  /**
   * What a call does with an upload. The rejection text comes from
   * `error_message(file=..., mimes=...)`, whose signature belongs to a
   * version of the message builder that is not part of this model.
   */
  datatype Decision = Valid | Invalid | Escapes(fault: Fault)

  // ---------------------------------------------------------------- FileValidatorByPythonMagic

  /** The state of `FileValidatorByPythonMagic`: the selected mimes in order. */
  datatype ByPythonMagic = ByPythonMagic(selectedMimes: seq<string>)

  /** `FileValidatorByPythonMagic.__init__`: fails exactly when some mime is empty; keeps the order. */
  function NewByPythonMagic(mimes: seq<string>): (r: Result<ByPythonMagic, ConfigError>)
    ensures r.Success? <==> AllTruthy(mimes)
    ensures r.Success? ==> r.value.selectedMimes == mimes
    ensures r.Failure? ==> r.error == ArgsEmpty
  {
    if AllTruthy(mimes) then Success(ByPythonMagic(mimes)) else Failure(ArgsEmpty)
  }

  /** `FileValidatorByPythonMagic.__call__`: the sniffed mime must be selected. */
  function CallByPythonMagic(v: ByPythonMagic, sniffed: string): (r: Decision)
    ensures r.Valid? <==> sniffed in v.selectedMimes
    ensures !r.Escapes?
  {
    if sniffed in v.selectedMimes then Valid else Invalid
  }

  /** `FileValidatorByPythonMagic.__eq__`. */
  function EqualsByPythonMagic(self: ByPythonMagic, other: Other<ByPythonMagic>): (r: bool)
    ensures r <==> other.SameClass? && other.value.selectedMimes == self.selectedMimes
  {
    other.SameClass? && other.value == self
  }

  // ---------------------------------------------------------------- FileValidatorByMimeTypes

  /** The state of `FileValidatorByMimeTypes`: the mimes as given and one extension per mime. */
  datatype ByMimeTypes = ByMimeTypes(selectedMimes: seq<string>, selectedExtensions: seq<string>)

  /**
   * `FileValidatorByMimeTypes.__init__`: each mime's extension is looked up
   * with `guessExtension` (`mimetypes.guess_extension`); the first mime
   * without one is an error.
   */
  function NewByMimeTypes(mimes: seq<string>, guessExtension: string -> Option<string>)
    : (r: Result<ByMimeTypes, ConfigError>)
    ensures r.Success? <==> forall i :: 0 <= i < |mimes| ==> guessExtension(mimes[i]).Some?
    ensures r.Success? ==>
      && r.value.selectedMimes == mimes
      && |r.value.selectedExtensions| == |mimes|
      && forall i :: 0 <= i < |mimes| ==> r.value.selectedExtensions[i] == guessExtension(mimes[i]).value
    ensures r.Failure? ==>
      exists k :: 0 <= k < |mimes| && r.error == MimeNotValid(mimes[k]) && guessExtension(mimes[k]).None?
        && (forall i :: 0 <= i < k ==> guessExtension(mimes[i]).Some?)
  {
    match Collect(mimes, guessExtension)
    case Success(extensions) => Success(ByMimeTypes(mimes, extensions))
    case Failure(mime) => Failure(MimeNotValid(mime))
  }

  /**
   * `FileValidatorByMimeTypes.__call__`: the guessed mime must be selected
   * and its extension must be selected too. An unknown extension guesses
   * None, whose extension lookup raises AttributeError, caught as a
   * rejection.
   */
  function CallByMimeTypes(v: ByMimeTypes, guessed: Option<string>, guessExtension: string -> Option<string>)
    : (r: Decision)
    ensures !r.Escapes?
    ensures guessed.None? ==> r == Invalid
    ensures guessed.Some? ==>
      (r.Valid? <==> guessed.value in v.selectedMimes && OptIn(guessExtension(guessed.value), v.selectedExtensions))
  {
    match guessed
    case None => Invalid
    case Some(mime) =>
      if mime !in v.selectedMimes || !OptIn(guessExtension(mime), v.selectedExtensions) then Invalid else Valid
  }

  /**
   * With the lookup the validator was built with, the extension test never
   * rejects on its own: a call accepts exactly the selected mimes.
   */
  lemma MimeTypesAcceptsSelected(mimes: seq<string>, guessExtension: string -> Option<string>, mime: string)
    requires NewByMimeTypes(mimes, guessExtension).Success?
    ensures CallByMimeTypes(NewByMimeTypes(mimes, guessExtension).value, Some(mime), guessExtension).Valid?
      <==> mime in mimes
  {
    var v := NewByMimeTypes(mimes, guessExtension).value;
    if mime in mimes {
      var i :| 0 <= i < |mimes| && mimes[i] == mime;
      assert v.selectedExtensions[i] == guessExtension(mime).value;
    }
  }

  /** `FileValidatorByMimeTypes.__eq__`. */
  function EqualsByMimeTypes(self: ByMimeTypes, other: Other<ByMimeTypes>): (r: bool)
    ensures r <==>
      && other.SameClass?
      && other.value.selectedMimes == self.selectedMimes
      && other.value.selectedExtensions == self.selectedExtensions
  {
    other.SameClass? && other.value == self
  }

  // ---------------------------------------------------------------- FileValidatorByFileType

  /** The state of `FileValidatorByFileType`: the `MIME` and `EXTENSION` of each selected type. */
  datatype ByFileType = ByFileType(selectedMimes: seq<string>, selectedExtensions: seq<string>)

  /** The `MIME`s of a list of types. */
  function Mimes(kinds: seq<FileKind>): (r: seq<string>)
    ensures |r| == |kinds| && forall i :: 0 <= i < |kinds| ==> r[i] == kinds[i].mime
  {
    seq(|kinds|, i requires 0 <= i < |kinds| => kinds[i].mime)
  }

  /** The `EXTENSION`s of a list of types. */
  function Extensions(kinds: seq<FileKind>): (r: seq<string>)
    ensures |r| == |kinds| && forall i :: 0 <= i < |kinds| ==> r[i] == kinds[i].extension
  {
    seq(|kinds|, i requires 0 <= i < |kinds| => kinds[i].extension)
  }

  /**
   * `FileValidatorByFileType.__init__`: no mime may be empty; then each
   * mime must name a filetype type (`byMime` stands for
   * `is_mime_supported` and `get_type(mime=...)`), whose `MIME` and
   * `EXTENSION` are kept.
   */
  function NewByFileType(mimes: seq<string>, byMime: string -> Option<FileKind>)
    : (r: Result<ByFileType, ConfigError>)
    ensures r.Success? <==> AllTruthy(mimes) && forall i :: 0 <= i < |mimes| ==> byMime(mimes[i]).Some?
    ensures !AllTruthy(mimes) ==> r == Failure(ArgsEmpty)
    ensures (AllTruthy(mimes) && r.Failure?) ==>
      exists k :: 0 <= k < |mimes| && r.error == MimeNotValid(mimes[k]) && byMime(mimes[k]).None?
        && (forall i :: 0 <= i < k ==> byMime(mimes[i]).Some?)
    ensures r.Success? ==>
      && |r.value.selectedMimes| == |mimes| && |r.value.selectedExtensions| == |mimes|
      && forall i :: 0 <= i < |mimes| ==>
           FileKind(r.value.selectedMimes[i], r.value.selectedExtensions[i]) == byMime(mimes[i]).value
  {
    if !AllTruthy(mimes) then Failure(ArgsEmpty)
    else
      match Collect(mimes, byMime)
      case Success(kinds) => Success(ByFileType(Mimes(kinds), Extensions(kinds)))
      case Failure(mime) => Failure(MimeNotValid(mime))
  }

  /**
   * `FileValidatorByFileType.__call__`: rejects only when neither the
   * guessed extension nor the guessed mime is selected; an undetected file
   * raises AttributeError, caught as a rejection.
   */
  function CallByFileType(v: ByFileType, guessed: Option<FileKind>): (r: Decision)
    ensures !r.Escapes?
    ensures guessed.None? ==> r == Invalid
    ensures guessed.Some? ==>
      (r.Valid? <==> guessed.value.extension in v.selectedExtensions || guessed.value.mime in v.selectedMimes)
  {
    match guessed
    case None => Invalid
    case Some(kind) =>
      if kind.extension !in v.selectedExtensions && kind.mime !in v.selectedMimes then Invalid else Valid
  }

  /** Selecting more types never turns an accepted upload into a rejected one. */
  lemma FileTypeMonotone(a: ByFileType, b: ByFileType, guessed: Option<FileKind>)
    requires forall m :: m in a.selectedMimes ==> m in b.selectedMimes
    requires forall e :: e in a.selectedExtensions ==> e in b.selectedExtensions
    ensures CallByFileType(a, guessed).Valid? ==> CallByFileType(b, guessed).Valid?
  {
  }

  /** A file whose type is one of the selected types is accepted. */
  lemma FileTypeAcceptsSelected(mimes: seq<string>, byMime: string -> Option<FileKind>, i: nat)
    requires NewByFileType(mimes, byMime).Success? && i < |mimes|
    ensures CallByFileType(NewByFileType(mimes, byMime).value, byMime(mimes[i])).Valid?
  {
    var v := NewByFileType(mimes, byMime).value;
    assert FileKind(v.selectedMimes[i], v.selectedExtensions[i]) == byMime(mimes[i]).value;
  }

  /** `FileValidatorByFileType.__eq__`. */
  function EqualsByFileType(self: ByFileType, other: Other<ByFileType>): (r: bool)
    ensures r <==>
      && other.SameClass?
      && other.value.selectedMimes == self.selectedMimes
      && other.value.selectedExtensions == self.selectedExtensions
  {
    other.SameClass? && other.value == self
  }

  // ---------------------------------------------------------------- FileValidator

  /** The state of the combined `FileValidator`: the normalised mimes and the python-magic flag. */
  datatype Combined = Combined(selectedMimes: seq<string>, mustBeValidatedByPg: bool)

  /**
   * `FileValidator.__init__`: each mime must name a filetype type, whose
   * `MIME` is kept; there is no emptiness check.
   */
  function NewCombined(mimes: seq<string>, pythonMagic: bool, byMime: string -> Option<FileKind>)
    : (r: Result<Combined, ConfigError>)
    ensures r.Success? <==> forall i :: 0 <= i < |mimes| ==> byMime(mimes[i]).Some?
    ensures r.Success? ==>
      && r.value.mustBeValidatedByPg == pythonMagic
      && |r.value.selectedMimes| == |mimes|
      && forall i :: 0 <= i < |mimes| ==> r.value.selectedMimes[i] == byMime(mimes[i]).value.mime
    ensures r.Failure? ==>
      exists k :: 0 <= k < |mimes| && r.error == MimeNotValid(mimes[k]) && byMime(mimes[k]).None?
        && (forall i :: 0 <= i < k ==> byMime(mimes[i]).Some?)
  {
    match Collect(mimes, byMime)
    case Success(kinds) => Success(Combined(Mimes(kinds), pythonMagic))
    case Failure(mime) => Failure(MimeNotValid(mime))
  }

  /**
   * `FileValidator.__call__`: python-magic's mime, then `guess(path).MIME`,
   * which raises AttributeError for an undetected file and nothing catches;
   * then filetype's and mimetypes' mimes must be selected, and
   * python-magic's as well when the flag is set.
   */
  function CallCombined(v: Combined, sniffed: string, guessed: Option<FileKind>, mimetypesGuess: Option<string>)
    : (r: Decision)
    ensures guessed.None? <==> r == Escapes(AttributeError)
    ensures guessed.Some? && v.mustBeValidatedByPg ==>
      (r.Valid? <==>
        guessed.value.mime in v.selectedMimes && OptIn(mimetypesGuess, v.selectedMimes) && sniffed in v.selectedMimes)
    ensures guessed.Some? && !v.mustBeValidatedByPg ==>
      (r.Valid? <==> guessed.value.mime in v.selectedMimes && OptIn(mimetypesGuess, v.selectedMimes))
  {
    match guessed
    case None => Escapes(AttributeError)
    case Some(kind) =>
      var filetypeOk := kind.mime in v.selectedMimes;
      var mimetypesOk := OptIn(mimetypesGuess, v.selectedMimes);
      if v.mustBeValidatedByPg then
        if !filetypeOk || !mimetypesOk || sniffed !in v.selectedMimes then Invalid else Valid
      else
        if !filetypeOk || !mimetypesOk then Invalid else Valid
  }

  /**
   * Setting the python-magic flag only narrows what is accepted, and
   * without it python-magic's answer does not matter.
   */
  lemma PgFlagNarrows(mimes: seq<string>, sniffed1: string, sniffed2: string, guessed: Option<FileKind>,
                      mimetypesGuess: Option<string>)
    ensures CallCombined(Combined(mimes, true), sniffed1, guessed, mimetypesGuess).Valid? ==>
            CallCombined(Combined(mimes, false), sniffed1, guessed, mimetypesGuess).Valid?
    ensures CallCombined(Combined(mimes, false), sniffed1, guessed, mimetypesGuess) ==
            CallCombined(Combined(mimes, false), sniffed2, guessed, mimetypesGuess)
  {
  }

  /** `FileValidator.__eq__`. */
  function EqualsCombined(self: Combined, other: Other<Combined>): (r: bool)
    ensures r <==>
      && other.SameClass?
      && other.value.selectedMimes == self.selectedMimes
      && other.value.mustBeValidatedByPg == self.mustBeValidatedByPg
  {
    other.SameClass? && other.value == self
  }
}

=== FILE: exceptions.dfy ===
/** The error-message builder: mime-list joining and template filling. */
module Exceptions {

  import opened Wrappers
  import Constants
  import Template

  /** The template used when none is passed: the configured setting, else `"{file} is not valid"`. */
  function ErrorTemplate(setting: Option<string>): string
  {
    match setting
    case Some(t) => t
    case None => Constants.DefaultErrorMessage
  }

  /** Sum of the lengths of the mimes. */
  function TotalLength(xs: seq<string>): nat
  {
    if |xs| == 0 then 0 else |xs[0]| + TotalLength(xs[1..])
  }

  /** How many entries of `xs` equal `x`. */
  function Occurrences(xs: seq<string>, x: string): (n: nat)
    ensures n <= |xs|
  {
    if |xs| == 0 then 0 else (if xs[0] == x then 1 else 0) + Occurrences(xs[1..], x)
  }

  /** The loop of `error_message` against a fixed `last`: each mime, then ", " unless it equals `last`. */
  function JoinAgainst(mimes: seq<string>, last: string): (r: string)
    ensures |r| == TotalLength(mimes) + 2 * (|mimes| - Occurrences(mimes, last))
  {
    if |mimes| == 0 then ""
    else mimes[0] + (if mimes[0] == last then "" else ", ") + JoinAgainst(mimes[1..], last)
  }

  /**
   * The mime list as `error_message` writes it: a separator follows every
   * mime that is not equal by value to `mimes[-1]`, so an earlier duplicate
   * of the last mime loses its separator. `mimes[-1]` is only read inside
   * the loop, so an empty list yields the empty text.
   */
  function JoinMimesAsWritten(mimes: seq<string>): (r: string)
    ensures |mimes| == 0 ==> r == ""
    ensures |mimes| > 0 ==>
      |r| == TotalLength(mimes) + 2 * (|mimes| - Occurrences(mimes, mimes[|mimes| - 1]))
  {
    if |mimes| == 0 then "" else JoinAgainst(mimes, mimes[|mimes| - 1])
  }

  /** The mime list joined with ", " between consecutive entries: what the message evidently intends. */
  function JoinMimes(mimes: seq<string>): (r: string)
    ensures |mimes| == 0 ==> r == ""
    ensures |mimes| > 0 ==> |r| == TotalLength(mimes) + 2 * (|mimes| - 1)
    ensures |mimes| > 0 ==> r[..|mimes[0]|] == mimes[0]
  {
    if |mimes| == 0 then ""
    else if |mimes| == 1 then mimes[0]
    else mimes[0] + ", " + JoinMimes(mimes[1..])
  }

  /** Appending a mime appends one separator and the mime. */
  lemma {:induction false} JoinMimesAppend(mimes: seq<string>, mime: string)
    requires |mimes| > 0
    ensures JoinMimes(mimes + [mime]) == JoinMimes(mimes) + ", " + mime
    decreases |mimes|
  {
    var m := mimes + [mime];
    assert m[1..] == mimes[1..] + [mime];
    if |mimes| > 1 {
      JoinMimesAppend(mimes[1..], mime);
    } else {
      assert m[1..] == [mime];
    }
  }

  /** No mime before the last one equals it. */
  predicate LastIsUnique(mimes: seq<string>)
  {
    forall i :: 0 <= i < |mimes| - 1 ==> mimes[i] != mimes[|mimes| - 1]
  }

  /** When no earlier mime equals `last` and the list ends in `last`, the loop writes the intended join. */
  lemma {:induction false} JoinAgainstUnique(mimes: seq<string>, last: string)
    requires |mimes| > 0 && mimes[|mimes| - 1] == last
    requires forall i :: 0 <= i < |mimes| - 1 ==> mimes[i] != last
    ensures JoinAgainst(mimes, last) == JoinMimes(mimes)
    decreases |mimes|
  {
    if |mimes| == 1 {
      assert mimes[1..] == [];
    } else {
      JoinAgainstUnique(mimes[1..], last);
    }
  }

  /** A value held at two different positions occurs at least twice. */
  lemma {:induction false} TwoOccurrences(xs: seq<string>, i: nat, j: nat)
    requires i < j < |xs| && xs[i] == xs[j]
    ensures Occurrences(xs, xs[j]) >= 2
    decreases i
  {
    if i == 0 {
      OneOccurrence(xs[1..], j - 1);
    } else {
      TwoOccurrences(xs[1..], i - 1, j - 1);
    }
  }

  /** A value held at some position occurs at least once. */
  lemma {:induction false} OneOccurrence(xs: seq<string>, j: nat)
    requires j < |xs|
    ensures Occurrences(xs, xs[j]) >= 1
    decreases j
  {
    if j > 0 {
      OneOccurrence(xs[1..], j - 1);
    }
  }

  /**
   * The written join agrees with the intended one exactly when the last
   * mime is not repeated earlier in the list.
   */
  lemma JoinAgreement(mimes: seq<string>)
    ensures JoinMimesAsWritten(mimes) == JoinMimes(mimes) <==> LastIsUnique(mimes)
  {
    if |mimes| > 0 {
      var last := mimes[|mimes| - 1];
      if LastIsUnique(mimes) {
        JoinAgainstUnique(mimes, last);
      } else {
        var i :| 0 <= i < |mimes| - 1 && mimes[i] == last;
        TwoOccurrences(mimes, i, |mimes| - 1);
      }
    }
  }

  /**
   * Any list whose first and last mimes are equal and differ from the middle
   * one, such as `["image/png", "audio/mpeg", "image/png"]`, loses the first
   * separator in the written join.
   */
  lemma DuplicateLastLosesSeparator(a: string, b: string)
    requires a != b
    ensures JoinMimesAsWritten([a, b, a]) == a + b + ", " + a
    ensures JoinMimes([a, b, a]) == a + ", " + b + ", " + a
  {
    var m := [a, b, a];
    assert m[1..] == [b, a];
    assert m[1..][1..] == [a];
    assert m[1..][1..][1..] == [];
    assert JoinAgainst([a], a) == a;
    assert JoinAgainst([b, a], a) == b + ", " + a;
    assert JoinMimes([a]) == a;
    assert JoinMimes([b, a]) == b + ", " + a;
  }

  /** The keyword arguments `error_message` passes to `format`, the mimes joined by its own loop. */
  function MessageFields(file: string, mimes: seq<string>, fileSize: string, maxFileSize: string): map<string, string>
  {
    map["file" := file, "mimes" := JoinMimesAsWritten(mimes), "file_size" := fileSize, "max_file_size" := maxFileSize]
  }

  /** The default template as fields and texts. */
  const DefaultParts: seq<(string, string)> := [("file", " is not valid")]

  /** The size-error template as fields and texts. */
  const SizeParts: seq<(string, string)> :=
    [("file_size", " is not valid size for this file," + " you can upload files up to "), ("max_file_size", ".")]

  /**
   * `error_message`: the template with `{file}`, `{mimes}`, `{file_size}`
   * and `{max_file_size}` substituted; a template `format` rejects is an
   * error rather than a message.
   */
  function ErrorMessage(file: string, mimes: seq<string>, fileSize: string, maxFileSize: string, message: string)
    : (r: Result<string, Template.FormatError>)
    ensures message == Constants.DefaultErrorMessage ==> r == Success(file + " is not valid")
    ensures message == Constants.FileSizeIsNotValid ==>
      r == Success(fileSize + " is not valid size for this file," + " you can upload files up to " + maxFileSize + ".")
    ensures message == "{mimes}" ==> r == Success(JoinMimesAsWritten(mimes))
  {
    var fields := MessageFields(file, mimes, fileSize, maxFileSize);
    if message == Constants.DefaultErrorMessage then
      DefaultTemplateRenders(message, fields);
      Template.Format(message, fields)
    else if message == Constants.FileSizeIsNotValid then
      SizeTemplateIsParts();
      SizeTemplateRenders(SizeParts, fields);
      Template.Format(message, fields)
    else if message == "{mimes}" then
      MimesTemplateRenders(message, fields);
      Template.Format(message, fields)
    else
      Template.Format(message, fields)
  }

  /**
   * Any configured template whose fields are plain keywords is filled with
   * the file name, the joined mimes and both sizes, field by field.
   */
  lemma ErrorMessageFillsAnyTemplate(file: string, mimes: seq<string>, fileSize: string, maxFileSize: string,
                                     t: seq<Template.Piece>)
    requires Template.PlainTemplate(t)
    ensures ErrorMessage(file, mimes, fileSize, maxFileSize, Template.Print(t)) ==
      Template.Render(t, MessageFields(file, mimes, fileSize, maxFileSize))
  {
    Template.FormatOfPrint(t, MessageFields(file, mimes, fileSize, maxFileSize));
  }

  /** The default template written as its field and text. */
  lemma DefaultTemplateIsParts()
    ensures Constants.DefaultErrorMessage == Template.PartsText(DefaultParts)
  {
    assert DefaultParts[1..] == [];
  }

  /** The size template written as its fields and texts. */
  lemma SizeTemplateIsParts()
    ensures Constants.FileSizeIsNotValid == Template.PartsText(SizeParts)
  {
    var tail := SizeParts[1..];
    assert tail[1..] == [];
    var a, b := " is not valid size for this file,", " you can upload files up to ";
    var f, m := "{" + "file_size" + "}", "{" + "max_file_size" + "}";
    assert f == "{file_size}" && m == "{max_file_size}";
    assert Template.PartsText(tail) == m + "." + "";
    assert Template.PartsText(SizeParts) == f + (a + b) + (m + "." + "");
    Regroup(f, a, b, m, ".");
  }

  /** Regrouping a five-way concatenation. */
  lemma Regroup(f: string, a: string, b: string, m: string, e: string)
    ensures f + (a + b) + (m + e + "") == f + a + b + m + e
  {
    assert m + e + "" == m + e;
  }

  /** The default template names the file. */
  lemma DefaultTemplateRenders(template: string, fields: map<string, string>)
    requires template == Constants.DefaultErrorMessage && "file" in fields
    ensures Template.Format(template, fields) == Success(fields["file"] + " is not valid")
  {
    assert Template.WellFormedParts(DefaultParts, fields) by {
      assert !Template.IsPositional("file") by { assert "file"[0] == 'f'; }
    }
    DefaultTemplateIsParts();
    Template.FormatParts(DefaultParts, fields);
    assert DefaultParts[1..] == [];
    assert fields["file"] + " is not valid" + "" == fields["file"] + " is not valid";
  }

  /** The size template names the file size and the ceiling. */
  lemma SizeTemplateRenders(parts: seq<(string, string)>, fields: map<string, string>)
    requires parts == SizeParts && "file_size" in fields && "max_file_size" in fields
    ensures Template.Format(Template.PartsText(parts), fields) ==
      Success(fields["file_size"] + " is not valid size for this file," + " you can upload files up to "
        + fields["max_file_size"] + ".")
  {
    var a, b := " is not valid size for this file,", " you can upload files up to ";
    assert Template.WellFormedParts(parts, fields) by {
      Template.BraceFreeAppend(a, b);
      assert !Template.IsPositional("file_size") by { assert "file_size"[0] == 'f'; }
      assert !Template.IsPositional("max_file_size") by { assert "max_file_size"[0] == 'm'; }
    }
    Template.FormatParts(parts, fields);
    var tail := parts[1..];
    assert tail[1..] == [];
    assert Template.PartsValue(tail, fields) == fields["max_file_size"] + "." + "";
    assert Template.PartsValue(parts, fields) == fields["file_size"] + (a + b) + Template.PartsValue(tail, fields);
    Regroup(fields["file_size"], a, b, fields["max_file_size"], ".");
  }

  /** A template that is only `{mimes}` yields the joined list. */
  lemma MimesTemplateRenders(template: string, fields: map<string, string>)
    requires template == "{mimes}" && "mimes" in fields
    ensures Template.Format(template, fields) == Success(fields["mimes"])
  {
    var parts := [("mimes", "")];
    assert Template.WellFormedParts(parts, fields) by {
      assert !Template.IsPositional("mimes") by { assert "mimes"[0] == 'm'; }
    }
    assert template == Template.PartsText(parts) by {
      assert parts[1..] == [];
    }
    Template.FormatParts(parts, fields);
    assert parts[1..] == [];
    assert fields["mimes"] + "" + "" == fields["mimes"];
  }

  /** With no configured setting, the message is the file name followed by " is not valid". */
  lemma UnsetSettingMessage(file: string, mimes: seq<string>, fileSize: string, maxFileSize: string)
    ensures ErrorTemplate(None) == Constants.FileIsNotValid
    ensures ErrorMessage(file, mimes, fileSize, maxFileSize, ErrorTemplate(None)) == Success(file + " is not valid")
  {
  }

  /**
   * The `{mimes}` message shows the intended ", "-separated list exactly
   * when the last mime is not repeated earlier in the list.
   */
  lemma MimesMessageIntendedIffUniqueLast(file: string, mimes: seq<string>, fileSize: string, maxFileSize: string)
    ensures ErrorMessage(file, mimes, fileSize, maxFileSize, "{mimes}") == Success(JoinMimes(mimes))
      <==> LastIsUnique(mimes)
  {
    JoinAgreement(mimes);
  }
}

=== FILE: models.dfy ===
/**
 * The Django model-layer validators of `file_validator/models.py`: the
 * `ValidatedFileField` model field and the model-level `FileValidator`.
 * Both reject a mime list whose entries are all equal, keep the size
 * ceiling as an optional value, and translate dispatch errors into one
 * user-facing rejection whose sizes go through `naturalsize`.
 */
module Models {

  import opened Wrappers
  import Constants
  import Utils
  import Validators
  import opened Outcomes

  /**
   * The size rule with an optional ceiling: no ceiling, like the sentinel
   * 0, means no limit.
   */
  function SizeExceeded(maxUploadFileSize: Option<int>, fileSize: int): (r: bool)
    ensures maxUploadFileSize.None? ==> !r
    ensures maxUploadFileSize.Some? ==> r == Validators.SizeExceeded(maxUploadFileSize.value, fileSize)
  {
    maxUploadFileSize.Some? && Validators.SizeExceeded(maxUploadFileSize.value, fileSize)
  }

  /**
   * The shared tail of `clean` and `__call__`: the size rule first, then
   * the dispatch. A dispatch `ValueError` becomes the `error_message`
   * rejection, whose sizes are formatted by `naturalSize` (humanize's
   * `naturalsize`); that formatter starts with `float(value)`, so an unset
   * ceiling makes it raise TypeError before any message is built. Any
   * other exception of the dispatch, here the IndexError of an empty
   * puremagic list, escapes. `formatSize` formats the size message.
   */
  function Check(libraries: seq<string>, mimes: seq<string>, maxUploadFileSize: Option<int>,
                 upload: Validators.Upload, det: Validators.Detections, template: string,
                 formatSize: int -> string, naturalSize: int -> string)
    : (r: Verdict)
    ensures SizeExceeded(maxUploadFileSize, upload.size) ==>
      r == Rejected(formatSize(upload.size) + " is not valid size for this file," + " you can upload files up to "
        + formatSize(maxUploadFileSize.value) + ".")
    ensures r.Accepted? <==>
      !SizeExceeded(maxUploadFileSize, upload.size) &&
      Validators.Dispatch(libraries, mimes, upload.contentType, det).Pass?
    ensures (!SizeExceeded(maxUploadFileSize, upload.size) &&
             Validators.Dispatch(libraries, mimes, upload.contentType, det) == Fail(Validators.NoCandidates)) ==>
      r == Escaped(IndexError)
    ensures (&& !SizeExceeded(maxUploadFileSize, upload.size)
             && Validators.Dispatch(libraries, mimes, upload.contentType, det).Fail?
             && Validators.Dispatch(libraries, mimes, upload.contentType, det).error.IsValueError()
             && maxUploadFileSize.None?) ==>
      r == Escaped(TypeError)
    ensures (&& !SizeExceeded(maxUploadFileSize, upload.size)
             && Validators.Dispatch(libraries, mimes, upload.contentType, det).Fail?
             && Validators.Dispatch(libraries, mimes, upload.contentType, det).error.IsValueError()
             && maxUploadFileSize.Some?) ==>
      r == Validators.Reject(Validators.Dispatch(libraries, mimes, upload.contentType, det).error, upload, mimes,
                             naturalSize(upload.size), naturalSize(maxUploadFileSize.value), template)
    ensures (&& template == Constants.DefaultErrorMessage
             && !SizeExceeded(maxUploadFileSize, upload.size)
             && Validators.Dispatch(libraries, mimes, upload.contentType, det).Fail?
             && Validators.Dispatch(libraries, mimes, upload.contentType, det).error.IsValueError()
             && maxUploadFileSize.Some?) ==>
      r == Rejected(upload.name + " is not valid")
  {
    if SizeExceeded(maxUploadFileSize, upload.size) then
      Rejected(Validators.SizeMessage(upload, mimes, formatSize(upload.size), formatSize(maxUploadFileSize.value)))
    else
      match Validators.Dispatch(libraries, mimes, upload.contentType, det)
      case Pass => Accepted
      case Fail(e) =>
        if !e.IsValueError() then Escaped(IndexError)
        else
          match maxUploadFileSize
          case None => Escaped(TypeError)
          case Some(ceiling) =>
            Validators.Reject(e, upload, mimes, naturalSize(upload.size), naturalSize(ceiling), template)
  }

  // ---------------------------------------------------------------- ValidatedFileField

  /** What a `ValidatedFileField` keeps: the mimes, and the libraries and ceiling exactly as given. */
  datatype Field = Field(acceptableMimes: seq<string>, libraries: Option<seq<string>>, maxUploadFileSize: Option<int>)

  /**
   * `ValidatedFileField.__init__`: the mimes must be given and must not be
   * all equal, so the empty list and a single mime are refused as well;
   * the libraries and the ceiling are stored unchecked.
   */
  function NewField(acceptableMimes: Option<seq<string>>, libraries: Option<seq<string>>,
                    maxUploadFileSize: Option<int>)
    : (r: Result<Field, Validators.Error>)
    ensures r.Success? <==> acceptableMimes.Some? && !Utils.AllEqual(acceptableMimes.value)
    ensures r.Failure? ==> r.error == Validators.MimesEmpty
    ensures r.Success? ==>
      && |acceptableMimes.value| >= 2
      && r.value == Field(acceptableMimes.value, libraries, maxUploadFileSize)
  {
    match acceptableMimes
    case None => Failure(Validators.MimesEmpty)
    case Some(mimes) =>
      if Utils.AllMimesIsEqual(mimes) then Failure(Validators.MimesEmpty)
      else Success(Field(mimes, libraries, maxUploadFileSize))
  }

  /**
   * `ValidatedFileField.clean`: as `Check`, except that a field built
   * without libraries hands None to the dispatch loop, which raises
   * TypeError once the size rule has passed.
   */
  function Clean(field: Field, upload: Validators.Upload, det: Validators.Detections, template: string,
                 formatSize: int -> string, naturalSize: int -> string)
    : (r: Verdict)
    ensures SizeExceeded(field.maxUploadFileSize, upload.size) ==>
      r == Rejected(formatSize(upload.size) + " is not valid size for this file," + " you can upload files up to "
        + formatSize(field.maxUploadFileSize.value) + ".")
    ensures field.libraries.None? && !SizeExceeded(field.maxUploadFileSize, upload.size) ==> r == Escaped(TypeError)
    ensures field.libraries.Some? ==>
      r == Check(field.libraries.value, field.acceptableMimes, field.maxUploadFileSize, upload, det, template,
                 formatSize, naturalSize)
  {
    match field.libraries
    case Some(libraries) =>
      Check(libraries, field.acceptableMimes, field.maxUploadFileSize, upload, det, template, formatSize, naturalSize)
    case None =>
      if SizeExceeded(field.maxUploadFileSize, upload.size) then
        Rejected(Validators.SizeMessage(upload, field.acceptableMimes, formatSize(upload.size),
          formatSize(field.maxUploadFileSize.value)))
      else Escaped(TypeError)
  }

  // ---------------------------------------------------------------- FileValidator

  /** What the model-level `FileValidator` keeps after construction. */
  datatype Config = Config(libraries: seq<string>, acceptableMimes: seq<string>, maxUploadFileSize: Option<int>)

  /**
   * `FileValidator.__init__` of the model layer: the libraries are checked
   * first (None selects `["all"]`), then the mimes must be given and not
   * all equal; the ceiling is stored as given.
   */
  function NewConfig(libraries: Option<seq<string>>, acceptableMimes: Option<seq<string>>,
                     maxUploadFileSize: Option<int>)
    : (r: Result<Config, Validators.Error>)
    ensures r.Success? <==>
      && Validators.SelectedLibraries(libraries).Success?
      && acceptableMimes.Some? && !Utils.AllEqual(acceptableMimes.value)
    ensures Validators.SelectedLibraries(libraries).Failure? ==>
      r == Failure(Validators.SelectedLibraries(libraries).error)
    ensures Validators.SelectedLibraries(libraries).Success? && r.Failure? ==> r.error == Validators.MimesEmpty
    ensures r.Success? ==>
      && |acceptableMimes.value| >= 2
      && r.value.libraries == (if libraries.None? then [Constants.All] else libraries.value)
      && r.value.acceptableMimes == acceptableMimes.value
      && r.value.maxUploadFileSize == maxUploadFileSize
  {
    match Validators.SelectedLibraries(libraries)
    case Failure(e) => Failure(e)
    case Success(selected) =>
      match acceptableMimes
      case None => Failure(Validators.MimesEmpty)
      case Some(mimes) =>
        if Utils.AllMimesIsEqual(mimes) then Failure(Validators.MimesEmpty)
        else Success(Config(selected, mimes, maxUploadFileSize))
  }

  /** `FileValidator.__call__` of the model layer. */
  function Call(cfg: Config, upload: Validators.Upload, det: Validators.Detections, template: string,
                formatSize: int -> string, naturalSize: int -> string)
    : (r: Verdict)
    ensures SizeExceeded(cfg.maxUploadFileSize, upload.size) ==> r.Rejected?
    ensures r.Accepted? <==>
      !SizeExceeded(cfg.maxUploadFileSize, upload.size) &&
      Validators.Dispatch(cfg.libraries, cfg.acceptableMimes, upload.contentType, det).Pass?
    ensures (!SizeExceeded(cfg.maxUploadFileSize, upload.size) &&
             Validators.Dispatch(cfg.libraries, cfg.acceptableMimes, upload.contentType, det)
               == Fail(Validators.NoCandidates)) ==>
      r == Escaped(IndexError)
    ensures (&& !SizeExceeded(cfg.maxUploadFileSize, upload.size)
             && Validators.Dispatch(cfg.libraries, cfg.acceptableMimes, upload.contentType, det).Fail?
             && Validators.Dispatch(cfg.libraries, cfg.acceptableMimes, upload.contentType, det).error.IsValueError()) ==>
      r == (if cfg.maxUploadFileSize.None? then Escaped(TypeError)
            else Validators.Reject(Validators.Dispatch(cfg.libraries, cfg.acceptableMimes, upload.contentType, det).error,
                                   upload, cfg.acceptableMimes, naturalSize(upload.size),
                                   naturalSize(cfg.maxUploadFileSize.value), template))
    ensures (&& template == Constants.DefaultErrorMessage
             && cfg.maxUploadFileSize.Some?
             && !SizeExceeded(cfg.maxUploadFileSize, upload.size)
             && Validators.Dispatch(cfg.libraries, cfg.acceptableMimes, upload.contentType, det).Fail?
             && Validators.Dispatch(cfg.libraries, cfg.acceptableMimes, upload.contentType, det).error.IsValueError()) ==>
      r == Rejected(upload.name + " is not valid")
  {
    Check(cfg.libraries, cfg.acceptableMimes, cfg.maxUploadFileSize, upload, det, template, formatSize, naturalSize)
  }

  /** `FileValidator.__eq__` of the model layer. */
  function Equals(self: Config, other: Other<Config>): (r: bool)
    ensures r <==>
      && other.SameClass?
      && other.value.libraries == self.libraries
      && other.value.acceptableMimes == self.acceptableMimes
      && other.value.maxUploadFileSize == self.maxUploadFileSize
  {
    other.SameClass? && other.value == self
  }

  /** An oversize file is rejected by either class whatever the detectors report. */
  lemma SizeBeforeDetectors(field: Field, cfg: Config, upload: Validators.Upload,
                            det1: Validators.Detections, det2: Validators.Detections, template: string,
                            formatSize: int -> string, naturalSize: int -> string)
    requires SizeExceeded(field.maxUploadFileSize, upload.size)
    requires SizeExceeded(cfg.maxUploadFileSize, upload.size)
    ensures Clean(field, upload, det1, template, formatSize, naturalSize) ==
            Clean(field, upload, det2, template, formatSize, naturalSize)
    ensures Call(cfg, upload, det1, template, formatSize, naturalSize) ==
            Call(cfg, upload, det2, template, formatSize, naturalSize)
  {
  }

  /**
   * A field given a library list decides uploads exactly as the validator
   * built from the same arguments.
   */
  lemma FieldMatchesValidator(libraries: seq<string>, mimes: seq<string>, maxUploadFileSize: Option<int>,
                              upload: Validators.Upload, det: Validators.Detections, template: string,
                              formatSize: int -> string, naturalSize: int -> string)
    requires NewConfig(Some(libraries), Some(mimes), maxUploadFileSize).Success?
    ensures NewField(Some(mimes), Some(libraries), maxUploadFileSize).Success?
    ensures Clean(NewField(Some(mimes), Some(libraries), maxUploadFileSize).value, upload, det, template,
                  formatSize, naturalSize) ==
            Call(NewConfig(Some(libraries), Some(mimes), maxUploadFileSize).value, upload, det, template,
                 formatSize, naturalSize)
  {
  }

  /** A list repeating one mime, the empty list and a single mime included, is refused by both constructors. */
  lemma RepeatedMimeRefused(mime: string, n: nat, libraries: Option<seq<string>>, maxUploadFileSize: Option<int>)
    ensures NewField(Some(seq(n, _ => mime)), libraries, maxUploadFileSize).Failure?
    ensures Validators.SelectedLibraries(libraries).Success? ==>
      NewConfig(libraries, Some(seq(n, _ => mime)), maxUploadFileSize) == Failure(Validators.MimesEmpty)
  {
  }

  /**
   * With the default unset ceiling, a file that fails a detector check is
   * never shown a validation message: formatting the missing ceiling
   * raises TypeError first, whatever the template.
   */
  lemma UnsetCeilingEscapes(libraries: Option<seq<string>>, mimes: seq<string>, upload: Validators.Upload,
                            det: Validators.Detections, template: string,
                            formatSize: int -> string, naturalSize: int -> string)
    requires NewConfig(libraries, Some(mimes), None).Success?
    requires Validators.Dispatch(NewConfig(libraries, Some(mimes), None).value.libraries, mimes,
                                 upload.contentType, det).Fail?
    requires Validators.Dispatch(NewConfig(libraries, Some(mimes), None).value.libraries, mimes,
                                 upload.contentType, det).error.IsValueError()
    ensures Call(NewConfig(libraries, Some(mimes), None).value, upload, det, template, formatSize, naturalSize)
      == Escaped(TypeError)
  {
  }

  /**
   * The evidently intended reading of an unset ceiling: `naturalsize`
   * formats the documented default 0 instead of `None`, so the dispatch
   * error reaches the user as the `error_message` rejection.
   */
  function CheckIntended(libraries: seq<string>, mimes: seq<string>, maxUploadFileSize: Option<int>,
                         upload: Validators.Upload, det: Validators.Detections, template: string,
                         formatSize: int -> string, naturalSize: int -> string)
    : (r: Verdict)
    ensures maxUploadFileSize.Some? ==>
      r == Check(libraries, mimes, maxUploadFileSize, upload, det, template, formatSize, naturalSize)
    ensures r.Accepted? <==>
      !SizeExceeded(maxUploadFileSize, upload.size) &&
      Validators.Dispatch(libraries, mimes, upload.contentType, det).Pass?
    ensures r != Escaped(TypeError)
    ensures (&& template == Constants.DefaultErrorMessage
             && Validators.Dispatch(libraries, mimes, upload.contentType, det).Fail?
             && Validators.Dispatch(libraries, mimes, upload.contentType, det).error.IsValueError()) ==>
      r.Rejected?
  {
    var ceiling := if maxUploadFileSize.Some? then maxUploadFileSize.value else Constants.Zero;
    if SizeExceeded(maxUploadFileSize, upload.size) then
      Rejected(Validators.SizeMessage(upload, mimes, formatSize(upload.size), formatSize(ceiling)))
    else
      match Validators.Dispatch(libraries, mimes, upload.contentType, det)
      case Pass => Accepted
      case Fail(e) =>
        if !e.IsValueError() then Escaped(IndexError)
        else Validators.Reject(e, upload, mimes, naturalSize(upload.size), naturalSize(ceiling), template)
  }
}

=== FILE: outcomes.dfy ===
/** What a validator call does with an upload, and the operand of `__eq__`. */
module Outcomes {

  import Template

  /** Exceptions that leave a validator without becoming a validation error. */
  datatype Fault =
    | IndexError                              // `file_mimes[0]` on an empty candidate list
    | TypeError                               // iterating a library list that is `None`
    | AttributeError                          // `.MIME` of an undetected file where nothing catches it
    | FormatFault(error: Template.FormatError) // the message template is rejected by `format`

  /**
   * The result of validating one upload: accepted, rejected with a
   * user-facing message (a `ValidationError` or its Django equivalent), or
   * an exception that escapes the validator.
   */
  datatype Verdict = Accepted | Rejected(message: string) | Escaped(fault: Fault)

  /** A filetype type object: the `MIME` and `EXTENSION` it carries. */
  datatype FileKind = FileKind(mime: string, extension: string)

  /** The right-hand operand of `__eq__`: an instance of the same class, or any other object. */
  datatype Other<C> = SameClass(value: C) | OtherClass
}

=== FILE: simple_validator.dfy ===
/**
 * The plain-Python validator of `file_validator/validator.py`: three
 * membership checks over `*args` and their sequential composition.
 */
module SimpleValidator {

  import opened Wrappers
  import Outcomes
  import Validators

  /** How a check ends: it returns, raises `ValueError` with a message, or raises AttributeError. */
  datatype Raised = ValueError(message: string) | AttributeError

  /** The membership rule each check shares: the detected mime must be among `args`. */
  function Member(args: seq<string>, mime: string): (r: Outcome<Raised>)
    ensures r.Pass? <==> mime in args
    ensures r.Fail? ==> r.error == ValueError(mime + " is not valid")
  {
    if mime !in args then Fail(ValueError(mime + " is not valid")) else Pass
  }

  /** `file_validator_by_python_magic`. */
  function ByPythonMagic(args: seq<string>, sniffed: string): (r: Outcome<Raised>)
    ensures r.Pass? <==> sniffed in args
    ensures r.Fail? ==> r.error == ValueError(sniffed + " is not valid")
  {
    Member(args, sniffed)
  }

  /**
   * `file_validator_by_mimetypes`: an unknown extension guesses None,
   * which is never among `args` and prints as "None".
   */
  function ByMimetypes(args: seq<string>, guessed: Option<string>): (r: Outcome<Raised>)
    ensures r.Pass? <==> OptIn(guessed, args)
    ensures r.Fail? ==> r.error == ValueError(Show(guessed) + " is not valid")
  {
    match guessed
    case None => Fail(ValueError(Show(guessed) + " is not valid"))
    case Some(mime) => Member(args, mime)
  }

  /** `file_validator_by_filetype`: an undetected file has no `.MIME` and raises AttributeError. */
  function ByFiletype(args: seq<string>, guessed: Option<Outcomes.FileKind>): (r: Outcome<Raised>)
    ensures guessed.None? ==> r == Fail(AttributeError)
    ensures guessed.Some? ==> (r.Pass? <==> guessed.value.mime in args)
    ensures guessed.Some? && r.Fail? ==> r.error == ValueError(guessed.value.mime + " is not valid")
  {
    match guessed
    case None => Fail(AttributeError)
    case Some(kind) => Member(args, kind.mime)
  }

  /** `file_validator`: filetype, then mimetypes, then python-magic, stopping at the first raise. */
  function FileValidator(args: seq<string>, sniffed: string, guessed: Option<Outcomes.FileKind>,
                         mimetypesGuess: Option<string>)
    : (r: Outcome<Raised>)
    ensures r.Pass? <==>
      guessed.Some? && guessed.value.mime in args && OptIn(mimetypesGuess, args) && sniffed in args
    ensures guessed.None? ==> r == Fail(AttributeError)
    ensures r.Fail? ==>
      r == (if ByFiletype(args, guessed).Fail? then ByFiletype(args, guessed)
            else if ByMimetypes(args, mimetypesGuess).Fail? then ByMimetypes(args, mimetypesGuess)
            else ByPythonMagic(args, sniffed))
  {
    var checks := [ByFiletype(args, guessed), ByMimetypes(args, mimetypesGuess), ByPythonMagic(args, sniffed)];
    assert (forall i :: 0 <= i < |checks| ==> checks[i].Pass?) <==>
      checks[0].Pass? && checks[1].Pass? && checks[2].Pass? by {
      if checks[0].Pass? && checks[1].Pass? && checks[2].Pass? {
        forall i | 0 <= i < |checks| ensures checks[i].Pass? {
          assert i == 0 || i == 1 || i == 2;
        }
      }
    }
    FirstFailure(checks)
  }

  /** With no `args`, every file fails, detected or not. */
  lemma NoArgumentsRejectsAll(sniffed: string, guessed: Option<Outcomes.FileKind>, mimetypesGuess: Option<string>)
    ensures FileValidator([], sniffed, guessed, mimetypesGuess).Fail?
    ensures ByPythonMagic([], sniffed).Fail? && ByMimetypes([], mimetypesGuess).Fail? && ByFiletype([], guessed).Fail?
  {
  }

  /** The mime filetype reports, or None for an undetected file. */
  function MimeOf(guessed: Option<Outcomes.FileKind>): (m: Option<string>)
    ensures m.Some? <==> guessed.Some?
    ensures m.Some? ==> m.value == guessed.value.mime
  {
    match guessed
    case None => None
    case Some(kind) => Some(kind.mime)
  }

  /**
   * The plain validator accepts exactly the files that the three
   * corresponding checks of `validators.py` accept; the two modules
   * differ only in how a failure is reported.
   */
  lemma AgreesWithValidators(args: seq<string>, sniffed: string, guessed: Option<Outcomes.FileKind>,
                             mimetypesGuess: Option<string>)
    ensures FileValidator(args, sniffed, guessed, mimetypesGuess).Pass? <==>
      && Validators.ByFiletype(args, MimeOf(guessed)).Pass?
      && Validators.ByMimetypes(args, mimetypesGuess).Pass?
      && Validators.ByPythonMagic(args, Some(sniffed)).Pass?
  {
  }
}

=== FILE: template.dfy ===
/**
 * The part of Python's `str.format` with keyword arguments that the
 * validator's message templates use: literal text, the escapes `{{` and
 * `}}`, and replacement fields `{name}` looked up by keyword.
 */
module Template {

  import opened Wrappers

  /** A parsed template: one literal character, or one replacement field. */
  datatype Piece = Char(c: char) | Field(name: string)

  /** Why `str.format` raises. */
  datatype FormatError =
    | SingleOpenBrace                 // ValueError: "Single '{' encountered in format string"
    | SingleCloseBrace                // ValueError: "Single '}' encountered in format string"
    | UnclosedField                   // ValueError: "expected '}' before end of string"
    | UnsupportedField(text: string)  // a conversion, format spec, attribute or index: not modelled
    | PositionalField(text: string)   // IndexError: `{}` or `{0}` with no positional arguments
    | MissingKey(name: string)        // KeyError

  /** Characters that end or extend a field name in Python's field syntax. */
  predicate IsMarkup(c: char)
  {
    c == '{' || c == '}' || c == ':' || c == '!' || c == '.' || c == '['
  }

  /** A field that is a bare keyword name, the only kind this model renders. */
  predicate IsPlainName(n: string)
  {
    forall i :: 0 <= i < |n| ==> !IsMarkup(n[i])
  }

  /** A field Python reads as a positional index: empty (auto-numbered) or all digits. */
  predicate IsPositional(n: string)
  {
    |n| == 0 || forall i :: 0 <= i < |n| ==> '0' <= n[i] <= '9'
  }

  /** The value a plain field takes among the keyword arguments. */
  function Lookup(name: string, fields: map<string, string>): (r: Result<string, FormatError>)
    ensures r.Success? <==> !IsPositional(name) && name in fields
    ensures r.Success? ==> r.value == fields[name]
  {
    if IsPositional(name) then Failure(PositionalField(name))
    else if name in fields then Success(fields[name])
    else Failure(MissingKey(name))
  }

  /** Prepends text to a successful rendering; a failure passes through. */
  function Prefix(v: string, r: Result<string, FormatError>): Result<string, FormatError>
  {
    match r
    case Success(t) => Success(v + t)
    case Failure(e) => Failure(e)
  }

  /** The first index at or after `i` holding `}`, or `|s|` if there is none. */
  function FieldEnd(s: string, i: nat): (k: nat)
    requires i <= |s|
    ensures i <= k <= |s|
    ensures forall j :: i <= j < k ==> s[j] != '}'
    ensures k < |s| ==> s[k] == '}'
    decreases |s| - i
  {
    if i == |s| || s[i] == '}' then i else FieldEnd(s, i + 1)
  }

  /**
   * `s.format(**fields)`, scanning left to right as CPython does, so that
   * the first problem met in the text is the one raised.
   */
  function Format(s: string, fields: map<string, string>): (r: Result<string, FormatError>)
    ensures BraceFree(s) ==> r == Success(s)
    ensures r.Failure? ==> !BraceFree(s)
    decreases |s|
  {
    if |s| == 0 then Success("")
    else if s[0] == '{' then
      if |s| == 1 then Failure(SingleOpenBrace)
      else if s[1] == '{' then Prefix("{", Format(s[2..], fields))
      else
        var k := FieldEnd(s, 1);
        if k == |s| then Failure(UnclosedField)
        else if !IsPlainName(s[1..k]) then Failure(UnsupportedField(s[1..k]))
        else
          match Lookup(s[1..k], fields)
          case Failure(e) => Failure(e)
          case Success(v) => Prefix(v, Format(s[k + 1..], fields))
    else if s[0] == '}' then
      if |s| >= 2 && s[1] == '}' then Prefix("}", Format(s[2..], fields))
      else Failure(SingleCloseBrace)
    else
      assert s == [s[0]] + s[1..];
      assert BraceFree(s) ==> BraceFree(s[1..]) by {
        if BraceFree(s) {
          assert forall j :: 0 <= j < |s[1..]| ==> s[1..][j] == s[j + 1];
        }
      }
      Prefix([s[0]], Format(s[1..], fields))
  }

  /** The text of a parsed template, with braces escaped. */
  function Print(t: seq<Piece>): string
  {
    if |t| == 0 then ""
    else
      var head :=
        match t[0]
        case Char(c) => if c == '{' || c == '}' then [c, c] else [c]
        case Field(n) => "{" + n + "}";
      head + Print(t[1..])
  }

  /** Every field of the template is a plain keyword name. */
  predicate PlainTemplate(t: seq<Piece>)
  {
    forall i :: 0 <= i < |t| && t[i].Field? ==> IsPlainName(t[i].name)
  }

  /** Reference substitution: each literal stays, each field becomes its keyword value. */
  function Render(t: seq<Piece>, fields: map<string, string>): (r: Result<string, FormatError>)
  {
    if |t| == 0 then Success("")
    else
      match t[0]
      case Char(c) => Prefix([c], Render(t[1..], fields))
      case Field(n) =>
        match Lookup(n, fields)
        case Failure(e) => Failure(e)
        case Success(v) => Prefix(v, Render(t[1..], fields))
  }

  /** Formatting the printed text of a template is substituting into the template. */
  lemma {:induction false} FormatOfPrint(t: seq<Piece>, fields: map<string, string>)
    requires PlainTemplate(t)
    ensures Format(Print(t), fields) == Render(t, fields)
    decreases |t|
  {
    if |t| > 0 {
      var rest := Print(t[1..]);
      assert PlainTemplate(t[1..]) by {
        forall i | 0 <= i < |t[1..]| && t[1..][i].Field?
          ensures IsPlainName(t[1..][i].name)
        {
          assert t[1..][i] == t[i + 1];
        }
      }
      FormatOfPrint(t[1..], fields);
      var s := Print(t);
      match t[0]
      case Char(c) =>
        if c == '{' || c == '}' {
          assert s == [c, c] + rest;
          assert s[2..] == rest;
        } else {
          assert s == [c] + rest;
          assert s[1..] == rest;
        }
      case Field(n) =>
        assert IsPlainName(n) by { assert t[0].Field?; }
        assert s == "{" + n + "}" + rest;
        var k := FieldEnd(s, 1);
        assert forall j :: 1 <= j < 1 + |n| ==> s[j] == n[j - 1];
        assert s[1 + |n|] == '}';
        assert k == 1 + |n|;
        assert s[1..k] == n;
        assert s[k + 1..] == rest;
        if |n| > 0 {
          assert s[1] == n[0];
        }
    }
  }

  /** No brace occurs in the text. */
  predicate BraceFree(t: string)
  {
    '{' !in t && '}' !in t
  }

  /** Brace-free texts join into brace-free text. */
  lemma BraceFreeAppend(a: string, b: string)
    requires BraceFree(a) && BraceFree(b)
    ensures BraceFree(a + b)
  {
  }

  /** Brace-free text at the front of a template is copied through. */
  lemma {:induction false} FormatText(t: string, rest: string, fields: map<string, string>)
    requires BraceFree(t)
    ensures Format(t + rest, fields) == Prefix(t, Format(rest, fields))
    decreases |t|
  {
    if |t| == 0 {
      assert t + rest == rest;
      PrefixEmpty(Format(rest, fields));
    } else {
      var s := t + rest;
      assert s[0] == t[0] && s[0] != '{' && s[0] != '}';
      assert s[1..] == t[1..] + rest;
      assert Format(s, fields) == Prefix([t[0]], Format(t[1..] + rest, fields));
      assert BraceFree(t[1..]) by {
        assert forall j :: 0 <= j < |t[1..]| ==> t[1..][j] == t[j + 1];
      }
      FormatText(t[1..], rest, fields);
      PrefixPrefix([t[0]], t[1..], Format(rest, fields));
      assert [t[0]] + t[1..] == t;
    }
  }

  /** Prepending nothing changes nothing. */
  lemma PrefixEmpty(r: Result<string, FormatError>)
    ensures Prefix("", r) == r
  {
    match r
    case Success(v) => assert "" + v == v;
    case Failure(_) =>
  }

  /** Prepending twice is prepending the joined text. */
  lemma PrefixPrefix(a: string, b: string, r: Result<string, FormatError>)
    ensures Prefix(a, Prefix(b, r)) == Prefix(a + b, r)
  {
    match r
    case Success(v) => assert a + (b + v) == a + b + v;
    case Failure(_) =>
  }

  /** A plain keyword field at the front of a template is replaced by its value. */
  lemma FormatField(n: string, rest: string, fields: map<string, string>)
    requires IsPlainName(n) && !IsPositional(n) && n in fields
    ensures Format("{" + n + "}" + rest, fields) == Prefix(fields[n], Format(rest, fields))
  {
    var s := "{" + n + "}" + rest;
    var k := FieldEnd(s, 1);
    assert forall j :: 1 <= j < 1 + |n| ==> s[j] == n[j - 1];
    assert s[1 + |n|] == '}';
    assert k == 1 + |n|;
    assert s[1..k] == n;
    assert s[k + 1..] == rest;
    assert |n| > 0 && s[1] == n[0];
  }

  /**
   * The scan is left to right: after brace-free text, a field with a
   * conversion, format spec, attribute or index raises, whatever follows.
   */
  lemma FormatStopsAtUnsupportedField(t: string, n: string, rest: string, fields: map<string, string>)
    requires BraceFree(t) && BraceFree(n) && !IsPlainName(n)
    ensures Format(t + "{" + n + "}" + rest, fields) == Failure(UnsupportedField(n))
  {
    var s := "{" + n + "}" + rest;
    assert t + "{" + n + "}" + rest == t + s;
    FormatText(t, s, fields);
    assert forall j :: 1 <= j < 1 + |n| ==> s[j] == n[j - 1];
    assert s[1 + |n|] == '}';
    assert FieldEnd(s, 1) == 1 + |n|;
    assert s[1..1 + |n|] == n;
    assert |n| > 0 && s[1] == n[0];
  }

  /** A keyword field, text, a second keyword field and text: both fields are replaced by their values. */
  lemma FormatTwoFields(n1: string, a: string, n2: string, b: string, fields: map<string, string>)
    requires IsPlainName(n1) && !IsPositional(n1) && n1 in fields && BraceFree(a)
    requires IsPlainName(n2) && !IsPositional(n2) && n2 in fields && BraceFree(b)
    ensures Format("{" + n1 + "}" + a + "{" + n2 + "}" + b, fields) == Success(fields[n1] + a + fields[n2] + b)
  {
    var parts := [(n1, a), (n2, b)];
    assert parts[1..][1..] == [];
    assert PartsText(parts[1..]) == "{" + n2 + "}" + b + "";
    assert PartsText(parts) == "{" + n1 + "}" + a + "{" + n2 + "}" + b;
    assert PartsValue(parts[1..], fields) == fields[n2] + b + "";
    assert PartsValue(parts, fields) == fields[n1] + a + fields[n2] + b;
    FormatParts(parts, fields);
  }

  /** A template written as fields each followed by brace-free text: `{n0}t0{n1}t1...`. */
  function PartsText(parts: seq<(string, string)>): string
  {
    if |parts| == 0 then "" else "{" + parts[0].0 + "}" + parts[0].1 + PartsText(parts[1..])
  }

  /** Every field of the parts is a plain keyword present in `fields`, every text is brace-free. */
  predicate WellFormedParts(parts: seq<(string, string)>, fields: map<string, string>)
  {
    forall i :: 0 <= i < |parts| ==>
      IsPlainName(parts[i].0) && !IsPositional(parts[i].0) && parts[i].0 in fields && BraceFree(parts[i].1)
  }

  /** The text the parts stand for once every field is replaced by its value. */
  function PartsValue(parts: seq<(string, string)>, fields: map<string, string>): string
    requires WellFormedParts(parts, fields)
  {
    if |parts| == 0 then "" else fields[parts[0].0] + parts[0].1 + PartsValue(parts[1..], fields)
  }

  /** Formatting such a template substitutes every field and keeps every text. */
  lemma {:induction false} FormatParts(parts: seq<(string, string)>, fields: map<string, string>)
    requires WellFormedParts(parts, fields)
    ensures Format(PartsText(parts), fields) == Success(PartsValue(parts, fields))
    decreases |parts|
  {
    if |parts| > 0 {
      var (n, t) := parts[0];
      var rest := PartsText(parts[1..]);
      FormatParts(parts[1..], fields);
      FormatText(t, rest, fields);
      assert "{" + n + "}" + t + rest == "{" + n + "}" + (t + rest);
      FormatField(n, t + rest, fields);
      var v := PartsValue(parts[1..], fields);
      assert fields[n] + (t + v) == fields[n] + t + v;
    }
  }
}

=== FILE: utils.dfy ===
/** The helper that decides whether a mime list is "all equal". */
module Utils {

  import opened Wrappers

  /** Concatenation of a list of runs. */
  function Flatten<T>(runs: seq<seq<T>>): seq<T>
  {
    if |runs| == 0 then [] else runs[0] + Flatten(runs[1..])
  }

  /** Every element of `s` equals its first. */
  predicate Constant<T(==)>(s: seq<T>)
  {
    forall i :: 0 <= i < |s| ==> s[i] == s[0]
  }

  /** Every two elements of `s` are equal. */
  predicate AllEqual<T(==)>(s: seq<T>)
  {
    forall i, j :: 0 <= i < |s| && 0 <= j < |s| ==> s[i] == s[j]
  }

  /**
   * The groups `itertools.groupby` yields: the maximal blocks of
   * consecutive equal elements, in order.
   */
  function GroupBy<T(==)>(s: seq<T>): (runs: seq<seq<T>>)
    ensures Flatten(runs) == s
    ensures forall i :: 0 <= i < |runs| ==> |runs[i]| > 0 && Constant(runs[i])
    ensures forall i :: 0 < i < |runs| ==> runs[i - 1][0] != runs[i][0]
    ensures |runs| <= |s|
    decreases |s|
  {
    if |s| == 0 then []
    else
      var rest := GroupBy(s[1..]);
      if |rest| > 0 && rest[0][0] == s[0] then
        [[s[0]] + rest[0]] + rest[1..]
      else
        [[s[0]]] + rest
  }

  /**
   * `all_mimes_is_equal`: `next(group, True) and not next(group, False)`,
   * which is true exactly when `groupby` yields at most one group.
   */
  function AllMimesIsEqual<T(==)>(s: seq<T>): (r: bool)
    ensures r <==> AllEqual(s)
    ensures |s| <= 1 ==> r
  {
    var groups := GroupBy(s);
    var first := if |groups| == 0 then None else Some(groups[0]);
    var second := if |groups| <= 1 then None else Some(groups[1]);
    GroupCountAtMostOne(s);
    first.None? || second.None?
  }

  /** At most one group exactly when all elements are equal. */
  lemma {:induction false} GroupCountAtMostOne<T>(s: seq<T>)
    ensures |GroupBy(s)| <= 1 <==> AllEqual(s)
  {
    var runs := GroupBy(s);
    if |runs| == 0 {
      assert s == Flatten(runs) == [];
    } else if |runs| == 1 {
      assert Flatten(runs) == runs[0] + Flatten(runs[1..]);
      assert Flatten(runs[1..]) == [];
      assert s == runs[0];
    } else {
      FirstOfRunInFlatten(runs, 0);
      FirstOfRunInFlatten(runs, 1);
      var j :| 0 <= j < |s| && s[j] == runs[1][0];
      assert s[0] != s[j];
    }
  }

  /** The first element of `runs[0]` heads the flattening; every run's head occurs in it. */
  lemma {:induction false} FirstOfRunInFlatten<T>(runs: seq<seq<T>>, k: nat)
    requires k < |runs|
    requires forall i :: 0 <= i < |runs| ==> |runs[i]| > 0
    ensures |Flatten(runs)| > 0 && Flatten(runs)[0] == runs[0][0]
    ensures exists j :: 0 <= j < |Flatten(runs)| && Flatten(runs)[j] == runs[k][0]
  {
    assert Flatten(runs) == runs[0] + Flatten(runs[1..]);
    if k == 0 {
      assert Flatten(runs)[0] == runs[0][0];
    } else {
      FirstOfRunInFlatten(runs[1..], k - 1);
      var j :| 0 <= j < |Flatten(runs[1..])| && Flatten(runs[1..])[j] == runs[1..][k - 1][0];
      assert Flatten(runs)[|runs[0]| + j] == runs[k][0];
    }
  }

  /** A difference at the end or in the middle makes the answer false; one repeated value, one value or none makes it true. */
  lemma DifferenceAnywhere<T>(a: T, b: T)
    requires a != b
    ensures !AllMimesIsEqual([a, a, b]) && !AllMimesIsEqual([a, b, a])
    ensures AllMimesIsEqual([a, a, a]) && AllMimesIsEqual([a]) && AllMimesIsEqual<T>([])
  {
    assert [a, a, b][1] != [a, a, b][2];
    assert [a, b, a][0] != [a, b, a][1];
  }
}

=== FILE: validators.dfy ===
/**
 * The validator of `file_validator/validators.py`: configuration checks,
 * the per-library membership checks, the library dispatch, the size
 * ceiling and the Django-facing `FileValidator` call.
 */
module Validators {

  import opened Wrappers
  import Constants
  import Utils
  import Exceptions
  import Template
  import opened Outcomes

  /**
   * What each detection library reports for the uploaded file. The
   * detectors themselves are foreign code; the model takes their answers
   * as given.
   */
  datatype Detections = Detections(
    pythonMagic: Option<string>,     // `magic.from_buffer(first 2048 bytes, mime=True)`; None: it raised AttributeError
    pureMagic: Option<seq<string>>,  // `mime_type` of each `puremagic.magic_stream` match; None: AttributeError
    mimetypes: Option<string>,       // `guess_type(path)[0]`; None for an unknown extension
    filetype: Option<string>)        // `guess(path).MIME`; None when `guess` finds nothing

  /** The errors the validator raises. All are `ValueError`s except `NoCandidates`. */
  datatype Error =
    | LibraryNotSupported(library: string)   // LIBRARY_IS_NOT_SUPPORTED
    | MimesEmpty                             // MIMES_EMPTY
    | MimeNotValid                           // MIME_NOT_VALID: the detector raised AttributeError
    | MimeNotAccepted(mime: Option<string>)  // MIME_NOT_VALID_WITH_MIME_NAME
    | NoCandidates                           // IndexError: `file_mimes[0]` of an empty list
  {
    predicate IsValueError()
    {
      !NoCandidates?
    }
  }

  /**
   * The text of each `ValueError` the validator raises, before `colored`
   * wraps it in terminal colour codes. `NoCandidates` is an IndexError
   * and carries Python's own text.
   */
  function ErrorText(e: Error): (r: string)
    requires e.IsValueError()
    ensures e.LibraryNotSupported? ==>
      r == e.library + " is not supported," + " you can choice library" + " from this list : "
        + Constants.AllSupportedLibrariesText + " "
    ensures e == MimesEmpty ==> r == Constants.MimesEmpty
    ensures e == MimeNotValid ==> r == Constants.MimeNotValid
    ensures e.MimeNotAccepted? ==> r == Show(e.mime) + " is not valid"
  {
    match e
    case LibraryNotSupported(library) =>
      var fields := map["library" := library, "libraries" := Constants.AllSupportedLibrariesText];
      LibraryTemplateRenders(fields);
      Template.Format(Constants.LibraryIsNotSupported, fields).value
    case MimesEmpty => Constants.MimesEmpty
    case MimeNotValid => Constants.MimeNotValid
    case MimeNotAccepted(mime) =>
      var fields := map["file_mime" := Show(mime)];
      MimeTemplateRenders(fields);
      Template.Format(Constants.MimeNotValidWithMimeName, fields).value
  }

  /** LIBRARY_IS_NOT_SUPPORTED names the library and then the allow-list. */
  lemma LibraryTemplateRenders(fields: map<string, string>)
    requires "library" in fields && "libraries" in fields
    ensures Template.Format(Constants.LibraryIsNotSupported, fields) ==
      Success(fields["library"] + " is not supported," + " you can choice library" + " from this list : "
        + fields["libraries"] + " ")
  {
    var n1, a1, a2, a3, n2, b :=
      "library", " is not supported,", " you can choice library", " from this list : ", "libraries", " ";
    LibraryNamesArePlain(n1, n2);
    LibraryTemplateIsTwoFields(n1, a1, a2, a3, n2, b);
    LibraryTextBraceFree(a1, a2, a3);
    TwoFieldTemplateRenders(Constants.LibraryIsNotSupported, n1, a1, a2, a3, n2, b, fields);
  }

  /** The field names of LIBRARY_IS_NOT_SUPPORTED are plain keywords. */
  lemma LibraryNamesArePlain(n1: string, n2: string)
    requires n1 == "library" && n2 == "libraries"
    ensures Template.IsPlainName(n1) && !Template.IsPositional(n1)
    ensures Template.IsPlainName(n2) && !Template.IsPositional(n2)
  {
    assert n1[0] == 'l';
    assert n2[0] == 'l';
  }

  /** A template known to be two keyword fields around a three-part brace-free text renders both fields. */
  lemma TwoFieldTemplateRenders(t: string, n1: string, a1: string, a2: string, a3: string, n2: string, b: string,
                                fields: map<string, string>)
    requires Template.IsPlainName(n1) && !Template.IsPositional(n1) && n1 in fields
    requires Template.IsPlainName(n2) && !Template.IsPositional(n2) && n2 in fields
    requires Template.BraceFree(a1 + a2 + a3) && Template.BraceFree(b)
    requires t == "{" + n1 + "}" + (a1 + a2 + a3) + "{" + n2 + "}" + b
    ensures Template.Format(t, fields) == Success(fields[n1] + a1 + a2 + a3 + fields[n2] + b)
  {
    Template.FormatTwoFields(n1, a1 + a2 + a3, n2, b, fields);
    assert fields[n1] + (a1 + a2 + a3) + fields[n2] + b == fields[n1] + a1 + a2 + a3 + fields[n2] + b;
  }

  /** LIBRARY_IS_NOT_SUPPORTED is the `library` field, a text, the `libraries` field and a space. */
  lemma LibraryTemplateIsTwoFields(n1: string, a1: string, a2: string, a3: string, n2: string, b: string)
    requires n1 == "library" && n2 == "libraries"
    requires a1 == " is not supported," && a2 == " you can choice library" && a3 == " from this list : " && b == " "
    ensures Constants.LibraryIsNotSupported == "{" + n1 + "}" + (a1 + a2 + a3) + "{" + n2 + "}" + b
  {
  }

  /** The text between the two fields of LIBRARY_IS_NOT_SUPPORTED holds no brace. */
  lemma LibraryTextBraceFree(a1: string, a2: string, a3: string)
    requires a1 == " is not supported," && a2 == " you can choice library" && a3 == " from this list : "
    ensures Template.BraceFree(a1 + a2 + a3)
  {
    Template.BraceFreeAppend(a1, a2);
    Template.BraceFreeAppend(a1 + a2, a3);
  }

  /** MIME_NOT_VALID_WITH_MIME_NAME names the mime. */
  lemma MimeTemplateRenders(fields: map<string, string>)
    requires "file_mime" in fields
    ensures Template.Format(Constants.MimeNotValidWithMimeName, fields) == Success(fields["file_mime"] + " is not valid")
  {
    assert Constants.MimeNotValidWithMimeName == "{" + "file_mime" + "}" + " is not valid";
    assert !Template.IsPositional("file_mime") by { assert "file_mime"[0] == 'f'; }
    Template.FormatField("file_mime", " is not valid", fields);
    assert Template.BraceFree(" is not valid");
  }

  // ---------------------------------------------------------------- adapters

  /** `file_validator_by_python_magic`: the sniffed mime must be acceptable. */
  function ByPythonMagic(mimes: seq<string>, detected: Option<string>): (r: Outcome<Error>)
    ensures r.Pass? <==> OptIn(detected, mimes)
    ensures detected.None? ==> r == Fail(MimeNotValid)
    ensures detected.Some? && r.Fail? ==> r == Fail(MimeNotAccepted(detected))
  {
    match detected
    case None => Fail(MimeNotValid)
    case Some(mime) => if mime in mimes then Pass else Fail(MimeNotAccepted(detected))
  }

  /**
   * `file_validator_by_mimetypes`: the mime guessed from the extension must
   * be acceptable; an unknown extension guesses `None`, which no list of
   * strings holds.
   */
  function ByMimetypes(mimes: seq<string>, guessed: Option<string>): (r: Outcome<Error>)
    ensures r.Pass? <==> OptIn(guessed, mimes)
    ensures r.Fail? ==> r == Fail(MimeNotAccepted(guessed))
  {
    if OptIn(guessed, mimes) then Pass else Fail(MimeNotAccepted(guessed))
  }

  /** `file_validator_by_filetype`: `guess(path).MIME` must be acceptable; no guess is MIME_NOT_VALID. */
  function ByFiletype(mimes: seq<string>, guessed: Option<string>): (r: Outcome<Error>)
    ensures r.Pass? <==> OptIn(guessed, mimes)
    ensures guessed.None? ==> r == Fail(MimeNotValid)
    ensures guessed.Some? && r.Fail? ==> r == Fail(MimeNotAccepted(guessed))
  {
    match guessed
    case None => Fail(MimeNotValid)
    case Some(mime) => if mime in mimes then Pass else Fail(MimeNotAccepted(guessed))
  }

  /** The distinct candidates, Python's `set(file_mimes)`. */
  function Distinct(candidates: seq<string>): set<string>
  {
    set i | 0 <= i < |candidates| :: candidates[i]
  }

  /** At most one distinct candidate exactly when all candidates are equal. */
  lemma DistinctAtMostOne(candidates: seq<string>)
    ensures |Distinct(candidates)| <= 1 <==> Utils.AllEqual(candidates)
  {
    var d := Distinct(candidates);
    if Utils.AllEqual(candidates) {
      if |candidates| > 0 {
        assert d == {candidates[0]};
      } else {
        assert d == {};
      }
    } else {
      var i, j :| 0 <= i < |candidates| && 0 <= j < |candidates| && candidates[i] != candidates[j];
      var pair := {candidates[i], candidates[j]};
      assert pair <= d;
      assert d == pair + (d - pair);
      assert |pair| == 2;
    }
  }

  /**
   * `file_validator_by_pure_magic`: when the candidates are not unanimous
   * the check is skipped; when they are, the one candidate must be
   * acceptable; an empty list reaches `file_mimes[0]` and raises IndexError.
   */
  function ByPureMagic(mimes: seq<string>, detected: Option<seq<string>>): (r: Outcome<Error>)
    ensures detected.None? ==> r == Fail(MimeNotValid)
    ensures detected == Some([]) ==> r == Fail(NoCandidates)
    ensures detected.Some? && !Utils.AllEqual(detected.value) ==> r == Pass
    ensures detected.Some? && |detected.value| > 0 && Utils.AllEqual(detected.value) ==>
      && (r.Pass? <==> detected.value[0] in mimes)
      && (r.Fail? ==> r == Fail(MimeNotAccepted(Some(detected.value[0]))))
  {
    match detected
    case None => Fail(MimeNotValid)
    case Some(candidates) =>
      DistinctAtMostOne(candidates);
      if |Distinct(candidates)| <= 1 then
        if |candidates| == 0 then Fail(NoCandidates)
        else if candidates[0] in mimes then Pass
        else Fail(MimeNotAccepted(Some(candidates[0])))
      else Pass
  }

  /** Two differing candidates, wherever they sit, skip the check whatever the acceptable list. */
  lemma AmbiguousSignatureSkips(mimes: seq<string>, candidates: seq<string>, i: nat, j: nat)
    requires i < |candidates| && j < |candidates| && candidates[i] != candidates[j]
    ensures ByPureMagic(mimes, Some(candidates)) == Pass
  {
  }

  /**
   * `file_validator`: filetype, mimetypes, pure_magic, then python_magic,
   * stopping at the first that raises.
   */
  function FileValidator(mimes: seq<string>, det: Detections): (r: Outcome<Error>)
    ensures r.Pass? <==>
      && OptIn(det.filetype, mimes)
      && OptIn(det.mimetypes, mimes)
      && ByPureMagic(mimes, det.pureMagic).Pass?
      && OptIn(det.pythonMagic, mimes)
    ensures r.Fail? ==>
      r == (if ByFiletype(mimes, det.filetype).Fail? then ByFiletype(mimes, det.filetype)
            else if ByMimetypes(mimes, det.mimetypes).Fail? then ByMimetypes(mimes, det.mimetypes)
            else if ByPureMagic(mimes, det.pureMagic).Fail? then ByPureMagic(mimes, det.pureMagic)
            else ByPythonMagic(mimes, det.pythonMagic))
  {
    var checks := AllChecks(mimes, det);
    assert (forall i :: 0 <= i < |checks| ==> checks[i].Pass?) <==>
      checks[0].Pass? && checks[1].Pass? && checks[2].Pass? && checks[3].Pass? by {
      if checks[0].Pass? && checks[1].Pass? && checks[2].Pass? && checks[3].Pass? {
        forall i | 0 <= i < |checks| ensures checks[i].Pass? {
          assert i == 0 || i == 1 || i == 2 || i == 3;
        }
      }
    }
    FirstFailure(checks)
  }

  /** The four checks `file_validator` runs, in its order. */
  function AllChecks(mimes: seq<string>, det: Detections): seq<Outcome<Error>>
  {
    [ ByFiletype(mimes, det.filetype),
      ByMimetypes(mimes, det.mimetypes),
      ByPureMagic(mimes, det.pureMagic),
      ByPythonMagic(mimes, det.pythonMagic) ]
  }

  // ---------------------------------------------------------------- dispatch

  /** The check one library name selects inside `file_validator_by_django`. */
  function CheckLibrary(library: string, mimes: seq<string>, contentType: Option<string>, det: Detections)
    : (r: Outcome<Error>)
    ensures !Constants.IsSupported(library) ==> r == Fail(LibraryNotSupported(library))
    ensures library == Constants.All ==> r == FileValidator(mimes, det)
    ensures library == Constants.PythonMagic ==> r == ByPythonMagic(mimes, det.pythonMagic)
    ensures library == Constants.PureMagic ==> r == ByPureMagic(mimes, det.pureMagic)
    ensures library == Constants.Filetype ==> r == ByFiletype(mimes, det.filetype)
    ensures library == Constants.Mimetypes ==> r == ByMimetypes(mimes, det.mimetypes)
    ensures library == Constants.Default ==> (r.Pass? <==> OptIn(contentType, mimes))
  {
    match Constants.FromName(library)
    case None => Fail(LibraryNotSupported(library))
    case Some(AllLib) => FileValidator(mimes, det)
    case Some(PythonMagicLib) => ByPythonMagic(mimes, det.pythonMagic)
    case Some(PureMagicLib) => ByPureMagic(mimes, det.pureMagic)
    case Some(FiletypeLib) => ByFiletype(mimes, det.filetype)
    case Some(MimetypesLib) => ByMimetypes(mimes, det.mimetypes)
    case Some(DefaultLib) =>
      if OptIn(contentType, mimes) then Pass else Fail(MimeNotAccepted(contentType))
  }

  /** The checks the selected libraries stand for, in the given order. */
  function LibraryChecks(libraries: seq<string>, mimes: seq<string>, contentType: Option<string>, det: Detections)
    : (checks: seq<Outcome<Error>>)
    ensures |checks| == |libraries|
    ensures forall i :: 0 <= i < |libraries| ==> checks[i] == CheckLibrary(libraries[i], mimes, contentType, det)
  {
    seq(|libraries|, i requires 0 <= i < |libraries| => CheckLibrary(libraries[i], mimes, contentType, det))
  }

  /**
   * `file_validator_by_django`: each library name in order, the first
   * unsupported name or failing check ending the walk. The test
   * `len(libraries) == 0` sits inside the loop, where the list is never
   * empty, so an empty list runs no check at all.
   */
  function Dispatch(libraries: seq<string>, mimes: seq<string>, contentType: Option<string>, det: Detections)
    : (r: Outcome<Error>)
    ensures r.Pass? <==>
      forall i :: 0 <= i < |libraries| ==> CheckLibrary(libraries[i], mimes, contentType, det).Pass?
    ensures r.Fail? ==>
      exists k :: 0 <= k < |libraries| && r == CheckLibrary(libraries[k], mimes, contentType, det) &&
        (forall i :: 0 <= i < k ==> CheckLibrary(libraries[i], mimes, contentType, det).Pass?)
    ensures |libraries| == 0 ==> r == Pass
  {
    var checks := LibraryChecks(libraries, mimes, contentType, det);
    FirstFailure(checks)
  }

  /** Selecting `all` is selecting filetype, mimetypes, pure_magic and python_magic in that order. */
  lemma AllIsFixedSequence(mimes: seq<string>, contentType: Option<string>, det: Detections)
    ensures Dispatch([Constants.All], mimes, contentType, det) ==
      Dispatch([Constants.Filetype, Constants.Mimetypes, Constants.PureMagic, Constants.PythonMagic], mimes, contentType, det)
  {
    var four := [Constants.Filetype, Constants.Mimetypes, Constants.PureMagic, Constants.PythonMagic];
    assert LibraryChecks(four, mimes, contentType, det) == AllChecks(mimes, det);
    var one := LibraryChecks([Constants.All], mimes, contentType, det);
    assert one == [FileValidator(mimes, det)];
    assert one[1..] == [];
  }

  /** A selection split in two: the second half runs only when the first passes. */
  lemma DispatchAppend(a: seq<string>, b: seq<string>, mimes: seq<string>, contentType: Option<string>, det: Detections)
    ensures Dispatch(a + b, mimes, contentType, det) ==
      if Dispatch(a, mimes, contentType, det).Pass? then Dispatch(b, mimes, contentType, det)
      else Dispatch(a, mimes, contentType, det)
  {
    var ca := LibraryChecks(a, mimes, contentType, det);
    var cb := LibraryChecks(b, mimes, contentType, det);
    assert LibraryChecks(a + b, mimes, contentType, det) == ca + cb;
    FirstFailureAppend(ca, cb);
  }

  // ---------------------------------------------------------------- size

  /**
   * `size_validator`: a file is too large when a ceiling is set (not the
   * sentinel 0) and its size exceeds it; a size equal to the ceiling passes.
   */
  function SizeExceeded(maxUploadFileSize: int, fileSize: int): (r: bool)
    ensures maxUploadFileSize == Constants.Zero ==> !r
    ensures fileSize <= maxUploadFileSize ==> !r
    ensures maxUploadFileSize != Constants.Zero && fileSize > maxUploadFileSize ==> r
  {
    maxUploadFileSize != Constants.Zero && fileSize > maxUploadFileSize
  }

  // ---------------------------------------------------------------- FileValidator

  /** The state a `FileValidator` keeps after construction. */
  datatype Config = Config(libraries: seq<string>, acceptableMimes: seq<string>, maxUploadFileSize: int)

  /**
   * The constructor's library loop: every name must be supported, checked
   * in order, and the accepted names are kept in that order.
   */
  function CheckLibraries(libraries: seq<string>): (r: Result<seq<string>, Error>)
    ensures r.Success? <==> forall i :: 0 <= i < |libraries| ==> Constants.IsSupported(libraries[i])
    ensures r.Success? ==> r.value == libraries
    ensures r.Failure? ==>
      exists k :: 0 <= k < |libraries| && r.error == LibraryNotSupported(libraries[k]) &&
        !Constants.IsSupported(libraries[k]) &&
        (forall i :: 0 <= i < k ==> Constants.IsSupported(libraries[i]))
  {
    if |libraries| == 0 then Success([])
    else if !Constants.IsSupported(libraries[0]) then Failure(LibraryNotSupported(libraries[0]))
    else
      match CheckLibraries(libraries[1..])
      case Failure(e) => Failure(e)
      case Success(rest) =>
        assert libraries == [libraries[0]] + libraries[1..];
        Success([libraries[0]] + rest)
  }

  /** The stored library list: `["all"]` when none is given, else the checked list. */
  function SelectedLibraries(libraries: Option<seq<string>>): (r: Result<seq<string>, Error>)
    ensures libraries.None? ==> r == Success([Constants.SelectingAllSupportedLibraries])
    ensures libraries.Some? ==> r == CheckLibraries(libraries.value)
  {
    match libraries
    case None => Success([Constants.SelectingAllSupportedLibraries])
    case Some(names) => CheckLibraries(names)
  }

  /**
   * `FileValidator.__init__`: the libraries are checked first, then the
   * mimes must be given and contain no empty entry (`all(acceptable_mimes)`,
   * which holds for an empty list); the size ceiling is stored as given.
   */
  function NewConfig(libraries: Option<seq<string>>, acceptableMimes: Option<seq<string>>, maxUploadFileSize: int)
    : (r: Result<Config, Error>)
    ensures r.Success? <==>
      && SelectedLibraries(libraries).Success?
      && acceptableMimes.Some? && AllTruthy(acceptableMimes.value)
    ensures r.Success? ==>
      && r.value.libraries == (if libraries.None? then [Constants.All] else libraries.value)
      && r.value.acceptableMimes == acceptableMimes.value
      && r.value.maxUploadFileSize == maxUploadFileSize
    ensures SelectedLibraries(libraries).Failure? ==> r == Failure(SelectedLibraries(libraries).error)
    ensures SelectedLibraries(libraries).Success? && (acceptableMimes.None? || !AllTruthy(acceptableMimes.value)) ==>
      r == Failure(MimesEmpty)
  {
    match SelectedLibraries(libraries)
    case Failure(e) => Failure(e)
    case Success(selected) =>
      match acceptableMimes
      case None => Failure(MimesEmpty)
      case Some(mimes) =>
        if !AllTruthy(mimes) then Failure(MimesEmpty)
        else Success(Config(selected, mimes, maxUploadFileSize))
  }

  /** An empty mime list is accepted, contrary to the docstring's promise of an error. */
  lemma EmptyMimeListAccepted(maxUploadFileSize: int)
    ensures NewConfig(None, Some([]), maxUploadFileSize) == Success(Config(["all"], [], maxUploadFileSize))
  {
  }

  /** What an upload offers the validator. */
  datatype Upload = Upload(name: string, size: int, contentType: Option<string>)

  /** The `size_validator` message for an oversize file, sizes already formatted. */
  function SizeMessage(upload: Upload, mimes: seq<string>, sizeText: string, ceilingText: string): (m: string)
    ensures m == sizeText + " is not valid size for this file," + " you can upload files up to " + ceilingText + "."
  {
    Exceptions.ErrorMessage(upload.name, mimes, sizeText, ceilingText, Constants.FileSizeIsNotValid).value
  }

  /**
   * The handler around `file_validator_by_django`: a `ValueError` becomes
   * a rejection whose text is `error_message` with `template`; anything
   * else, here the IndexError of an empty puremagic list, escapes.
   */
  function Reject(e: Error, upload: Upload, mimes: seq<string>, sizeText: string, ceilingText: string, template: string)
    : (r: Verdict)
    ensures !r.Accepted?
    ensures !e.IsValueError() <==> r == Escaped(IndexError)
    ensures e.IsValueError() ==>
      (r.Rejected? <==> Exceptions.ErrorMessage(upload.name, mimes, sizeText, ceilingText, template).Success?)
    ensures e.IsValueError() && template == Constants.DefaultErrorMessage ==> r == Rejected(upload.name + " is not valid")
  {
    if !e.IsValueError() then Escaped(IndexError)
    else
      match Exceptions.ErrorMessage(upload.name, mimes, sizeText, ceilingText, template)
      case Success(m) => Rejected(m)
      case Failure(fe) => Escaped(FormatFault(fe))
  }

  /**
   * `FileValidator.__call__`: the size rule first, its failure a
   * `ValidationError` carrying the size message; then the dispatch, whose
   * `ValueError`s become one `ValidationError` with `error_message` built
   * from `template`. Other exceptions escape. `formatSize` stands for
   * `filesizeformat`.
   */
  function Call(cfg: Config, upload: Upload, det: Detections, template: string, formatSize: int -> string)
    : (r: Verdict)
    ensures SizeExceeded(cfg.maxUploadFileSize, upload.size) ==>
      r == Rejected(formatSize(upload.size) + " is not valid size for this file," + " you can upload files up to "
        + formatSize(cfg.maxUploadFileSize) + ".")
    ensures r.Accepted? <==>
      !SizeExceeded(cfg.maxUploadFileSize, upload.size) &&
      Dispatch(cfg.libraries, cfg.acceptableMimes, upload.contentType, det).Pass?
    ensures (!SizeExceeded(cfg.maxUploadFileSize, upload.size) &&
             Dispatch(cfg.libraries, cfg.acceptableMimes, upload.contentType, det) == Fail(NoCandidates)) ==>
      r == Escaped(IndexError)
    ensures (&& template == Constants.DefaultErrorMessage
             && !SizeExceeded(cfg.maxUploadFileSize, upload.size)
             && Dispatch(cfg.libraries, cfg.acceptableMimes, upload.contentType, det).Fail?
             && Dispatch(cfg.libraries, cfg.acceptableMimes, upload.contentType, det).error.IsValueError()) ==>
      r == Rejected(upload.name + " is not valid")
    ensures (!SizeExceeded(cfg.maxUploadFileSize, upload.size) &&
             Dispatch(cfg.libraries, cfg.acceptableMimes, upload.contentType, det).Fail?) ==>
      r == Reject(Dispatch(cfg.libraries, cfg.acceptableMimes, upload.contentType, det).error, upload,
                  cfg.acceptableMimes, formatSize(upload.size), formatSize(cfg.maxUploadFileSize), template)
  {
    var sizeText, ceilingText := formatSize(upload.size), formatSize(cfg.maxUploadFileSize);
    if SizeExceeded(cfg.maxUploadFileSize, upload.size) then
      Rejected(SizeMessage(upload, cfg.acceptableMimes, sizeText, ceilingText))
    else
      match Dispatch(cfg.libraries, cfg.acceptableMimes, upload.contentType, det)
      case Pass => Accepted
      case Fail(e) => Reject(e, upload, cfg.acceptableMimes, sizeText, ceilingText, template)
  }

  /** An oversize file is rejected whatever the detectors report. */
  lemma SizeBeforeDetectors(cfg: Config, upload: Upload, det1: Detections, det2: Detections,
                            template: string, formatSize: int -> string)
    requires SizeExceeded(cfg.maxUploadFileSize, upload.size)
    ensures Call(cfg, upload, det1, template, formatSize) == Call(cfg, upload, det2, template, formatSize)
    ensures Call(cfg, upload, det1, template, formatSize).Rejected?
  {
  }

  /** `FileValidator.__eq__`: same class and equal libraries, mimes and size ceiling. */
  function Equals(self: Config, other: Other<Config>): (r: bool)
    ensures r <==>
      && other.SameClass?
      && other.value.libraries == self.libraries
      && other.value.acceptableMimes == self.acceptableMimes
      && other.value.maxUploadFileSize == self.maxUploadFileSize
  {
    other.SameClass? && other.value == self
  }

  /** Equal validators decide every upload alike. */
  lemma EqualValidatorsAgree(a: Config, b: Config, upload: Upload, det: Detections,
                             template: string, formatSize: int -> string)
    requires Equals(a, SameClass(b))
    ensures Call(a, upload, det, template, formatSize) == Call(b, upload, det, template, formatSize)
  {
  }

  /**
   * A 50 KB PNG under a 1 MB ceiling, with PNG and MPEG audio acceptable and
   * every detector reporting `image/png`, passes with `all` selected.
   */
  lemma PngUploadAccepted(template: string, formatSize: int -> string)
    ensures NewConfig(Some([Constants.All]), Some(["image/png", "audio/mpeg"]), 1000000).Success?
    ensures Call(NewConfig(Some([Constants.All]), Some(["image/png", "audio/mpeg"]), 1000000).value,
                 Upload("test.png", 50000, Some("image/png")),
                 Detections(Some("image/png"), Some(["image/png"]), Some("image/png"), Some("image/png")),
                 template, formatSize) == Accepted
  {
    var mimes := ["image/png", "audio/mpeg"];
    var det := Detections(Some("image/png"), Some(["image/png"]), Some("image/png"), Some("image/png"));
    assert Utils.AllEqual(["image/png"]);
    assert FileValidator(mimes, det) == Pass;
    assert CheckLibrary(Constants.All, mimes, Some("image/png"), det) == Pass;
  }
}

=== FILE: wrappers.dfy ===
/** Failure-carrying datatypes shared by every module of the model. */
module Wrappers {

  /** A value that may be absent; Python's `None` is `None`. */
  datatype Option<+T> = None | Some(value: T)

  /** The outcome of a constructor or computation that may raise. */
  datatype Result<+R, +E> = Success(value: R) | Failure(error: E)

  /** The outcome of a check that returns nothing on success and raises on failure. */
  datatype Outcome<+E> = Pass | Fail(error: E)

  /** Python's `str()` of an optional string: `None` prints as "None". */
  function Show(o: Option<string>): (s: string)
    ensures o.Some? ==> s == o.value
    ensures o.None? ==> s == "None"
  {
    match o
    case None => "None"
    case Some(v) => v
  }

  /** Python's `x in xs` where `x` may be `None` and `xs` holds only strings. */
  predicate OptIn(o: Option<string>, xs: seq<string>)
  {
    o.Some? && o.value in xs
  }

  /** Python's truthiness of every string in a list, that is `all(xs)`. */
  predicate AllTruthy(xs: seq<string>)
  {
    forall i :: 0 <= i < |xs| ==> xs[i] != ""
  }

  /**
   * Runs checks in order and stops at the first failure, as a sequence of
   * calls that raise does.
   */
  function FirstFailure<E>(checks: seq<Outcome<E>>): (r: Outcome<E>)
    ensures r.Pass? <==> forall i :: 0 <= i < |checks| ==> checks[i].Pass?
    ensures r.Fail? ==>
      exists k :: 0 <= k < |checks| && r == checks[k] && (forall i :: 0 <= i < k ==> checks[i].Pass?)
  {
    if |checks| == 0 then Pass
    else if checks[0].Fail? then checks[0]
    else
      var rest := FirstFailure(checks[1..]);
      assert forall i :: 1 <= i < |checks| ==> checks[i] == checks[1..][i - 1];
      rest
  }

  /** Checks run after a passing prefix continue with the suffix; a failing prefix decides. */
  lemma {:induction false} FirstFailureAppend<E>(a: seq<Outcome<E>>, b: seq<Outcome<E>>)
    ensures FirstFailure(a + b) == if FirstFailure(a).Pass? then FirstFailure(b) else FirstFailure(a)
    decreases |a|
  {
    if |a| == 0 {
      assert a + b == b;
    } else {
      assert (a + b)[0] == a[0];
      assert (a + b)[1..] == a[1..] + b;
      FirstFailureAppend(a[1..], b);
    }
  }

  /**
   * Applies a lookup that may fail to each element in order, as a
   * constructor loop that raises on the first element the lookup rejects;
   * the failure names that element.
   */
  function Collect<A, B>(xs: seq<A>, f: A -> Option<B>): (r: Result<seq<B>, A>)
    ensures r.Success? <==> forall i :: 0 <= i < |xs| ==> f(xs[i]).Some?
    ensures r.Success? ==> |r.value| == |xs| && forall i :: 0 <= i < |xs| ==> r.value[i] == f(xs[i]).value
    ensures r.Failure? ==>
      exists k :: 0 <= k < |xs| && r.error == xs[k] && f(xs[k]).None? && (forall i :: 0 <= i < k ==> f(xs[i]).Some?)
  {
    if |xs| == 0 then Success([])
    else
      match f(xs[0])
      case None => Failure(xs[0])
      case Some(y) =>
        match Collect(xs[1..], f)
        case Failure(x) =>
          assert forall i :: 1 <= i < |xs| ==> xs[i] == xs[1..][i - 1];
          Failure(x)
        case Success(ys) =>
          assert forall i :: 1 <= i < |xs| ==> xs[i] == xs[1..][i - 1];
          Success([y] + ys)
  }
}
